=== FILE: README.md ===
# ListenBrainz front-end logic in Dafny

This project models four pieces of the ListenBrainz web front end as immutable data and pure
transitions, and proves properties of them.

- **BrainzPlayer** (`player.dfy`, `data_sources.dfy`) is the in-page music player.
  - The model covers choosing and ordering the playback services ("data sources").
  - It covers choosing the backend that plays a listen, with its fallback chain.
  - It covers moving through the main queue and the ambient queue under the three repeat modes.
  - It covers falling back after a failed play, removing a broken service, clearing the queue,
    the listen-submission check, pausing and seeking.
  - Effects on the outside world are appended to an `emitted` log in the state. These are
    warnings, "play on backend k", seeks, submissions and the now-playing post.
- **Artist evolution chart** (`artist_evolution.dfy`) turns per-period artist→count objects
  into stream-chart rows for the five artists with the largest totals. It also covers the
  axis labels for each statistics range.
- **Libre.fm / Last.fm importer** (`librefm_importer.dfy`) covers:
  - the filter that keeps only timestamped scrobbles;
  - the rate-limit wait;
  - the progress-bar percentage;
  - the page loop, with its counters and error exits;
  - the figures of the final message.

  Fetching a page is a parameter: `fetch(page)` is what `getPage` yields once its retries are
  spent.
- **Personal-recommendation dialog** (`personal_recommendations.dfy`) covers:
  - the recipient list (`uniq` on add, filter on remove);
  - the follower search, which ignores case;
  - the message box, which collapses runs of whitespace and caps the text at 280 characters;
  - the request metadata and the success title.

`common.dfy` holds `Option` and an order-preserving `Filter`, the model of
`Array.prototype.filter`. `text.dfy` models the decimal notation of numbers, ASCII lower-casing,
`includes` and `substring(0, n)`.

Some behaviour of the code is modelled as it is written, even where it looks unintended:

- `playPreviousTrack` on an empty main queue with ambient items starts an undefined listen at
  index -1 (`Player.PreviousOnEmptyMainQueue`).
- `seekToPositionMs` without a current backend calls `invalidateDataSource()`. With the current
  index off the registry, that call changes nothing.
- The importer ends with an error when a page converts to no listen at all. The loop reads
  `payload[0]` of an empty payload.
- In the chart, an artist called `id` overwrites a row's `id` property.

## Model

| member | source | states |
|---|---|---|
| DataSources.EnabledDataSources | frontend/js/src/common/brainzplayer/BrainzPlayer.tsx:215-233 | A service is enabled iff its preference is on (a missing preference counts as on) and it has playback permission, except YouTube, which needs none. No service is listed twice. |
| DataSources.SortedDataSources | frontend/js/src/common/brainzplayer/BrainzPlayer.tsx:235-237 | The sorted list holds exactly the services that are both in the priority list (the user's, or the default) and enabled. It is never longer than the priority list. |
| DataSources.SortedKeepsPriorityOrder | frontend/js/src/common/brainzplayer/BrainzPlayer.tsx:235-237 | Sorting distributes over concatenation of the priority list, so the user's priority order is kept. |
| DataSources.SortedNoDup | frontend/js/src/common/brainzplayer/BrainzPlayer.tsx:235-237 | A priority list without repeats gives a sorted list without repeats. |
| DataSources.Registry | frontend/js/src/common/brainzplayer/BrainzPlayer.tsx:244-267 | There is one handle per sorted key, at the same position and for the same service. |
| DataSources.IndexOfKey | frontend/js/src/common/brainzplayer/BrainzPlayer.tsx:331-333 | The result is -1 iff no handle is for the service. Otherwise it is the first position whose handle is for that service. |
| DataSources.RemoveAt | frontend/js/src/common/brainzplayer/BrainzPlayer.tsx:339 | `splice(index, 1)`: one handle fewer, with the handles before and after it kept in order. An index past the end changes nothing. |
| DataSources.RemovedKeyIsGone | frontend/js/src/common/brainzplayer/BrainzPlayer.tsx:331-339 | If the service had exactly one handle, it is absent after removal, and the registry shrinks by one. |
| DataSources.Invalidate | frontend/js/src/common/brainzplayer/BrainzPlayer.tsx:326-342 | A named service's handle is removed: the result is `splice` at the first position holding that service, so the other handles stay in order. With no service named, the current handle is removed, again keeping the order of the rest. A missing service, or a current index off the registry, leaves the registry unchanged. |
| Player.FindOwner | frontend/js/src/common/brainzplayer/BrainzPlayer.tsx:413-416 | The result is the first handle from `from` on that owns the listen, or -1 when no handle does. |
| Player.SelectedIndex | frontend/js/src/common/brainzplayer/BrainzPlayer.tsx:410-424 | From data-source index 0 it is the first owning handle, or 0 when none owns the listen. From any other index it is that index. |
| Player.StartTrack | frontend/js/src/common/brainzplayer/BrainzPlayer.tsx:396-408 | It sets the cursor and the current listen, activates the player, and zeroes the playback time. The submission gate is reset, and nothing is played or submitted. |
| Player.StartBackend | frontend/js/src/common/brainzplayer/BrainzPlayer.tsx:440-450 | It records handle `k` as current and asks exactly that handle to play. No other field changes. |
| Player.MissingHandleSelectsNothing | frontend/js/src/common/brainzplayer/BrainzPlayer.tsx:426-429 | When no handle exists at the selected index, no backend can be settled on. |
| Player.SkippedHandle | frontend/js/src/common/brainzplayer/BrainzPlayer.tsx:433-438 | Skipping a handle that neither owns nor can search the listen does not change what the fallback chain settles on. |
| Player.AcceptedHandle | frontend/js/src/common/brainzplayer/BrainzPlayer.tsx:433-441 | A handle at the selected index that can serve the listen is the backend settled on. |
| Player.PlayListen | frontend/js/src/common/brainzplayer/BrainzPlayer.tsx:391-451 | It always moves the cursor, activates the player and resets the submission gate. When some backend is selectable, it plays exactly that one (the first owner from index 0, otherwise the first acceptable handle from the start index) and records it as current. Otherwise nothing plays and the current backend stays. |
| Player.NextCursor | frontend/js/src/common/brainzplayer/BrainzPlayer.tsx:479-535 | Repeat one replays the item at the cursor, and moves a cursor at -1 onto item 0. Otherwise the cursor steps forward, or back when inverted, and stepping back from the first item or from -1 wraps to the last. Whenever the target index is at or past the end of the main queue, whatever the cursor, the repeat mode or the direction, the front of the ambient queue moves to the end of the main queue and is played. With nothing ambient, repeat off stops the timer and any other mode restarts at item 0. With both queues empty the cursor does not move. Items never leave the queues (`queue + ambient` is preserved), and the cursor stays consistent. |
| Player.PlayNextTrack | frontend/js/src/common/brainzplayer/BrainzPlayer.tsx:461-535 | An inactive player is left alone. An active one moves its cursor exactly as `NextCursor` says. With both queues empty it only warns "No listens to play". The repeat mode and the registry are unchanged. Running past the end under repeat off with nothing ambient only stops the timer. Every other step starts the item landed on: the playback time is zeroed, the submission gate reset, and the backend is the one backend selection settles on from data source 0 (none is played when nothing is selectable). |
| Player.PlayPreviousTrack | frontend/js/src/common/brainzplayer/BrainzPlayer.tsx:537-539 | From inside the main queue, stepping back leaves both queues unchanged. The main queue grows by at most the ambient front. Consistency is preserved. |
| Player.PreviousOnEmptyMainQueue | frontend/js/src/common/brainzplayer/BrainzPlayer.tsx:490-500 | With an empty main queue and ambient items, stepping back starts an undefined listen at index -1 and leaves the ambient queue alone. |
| Player.AdvanceAdd | frontend/js/src/common/brainzplayer/BrainzPlayer.tsx:461-535 | `a + b` calls of `playNextTrack` are `a` calls followed by `b` calls. |
| Player.AdvanceCursor | frontend/js/src/common/brainzplayer/BrainzPlayer.tsx:461-535 | `n` calls of `playNextTrack` move the cursor as `n` steps of `NextCursor`, and keep the player active with the same repeat mode. |
| Player.CursorAfterAdd | frontend/js/src/common/brainzplayer/BrainzPlayer.tsx:461-535 | `a + b` cursor steps are `a` steps followed by `b` steps. |
| Player.WalkForward | frontend/js/src/common/brainzplayer/BrainzPlayer.tsx:496-501 | Outside repeat one with nothing ambient, `n` steps from item `i` land on item `i + n` while it exists. |
| Player.WalkAround | frontend/js/src/common/brainzplayer/BrainzPlayer.tsx:496-535 | Under repeat all with nothing ambient, `n` steps (up to the queue length) land on item `i + n`, wrapping past the last item to the first. |
| Player.CursorFullCycle | frontend/js/src/common/brainzplayer/BrainzPlayer.tsx:496-535 | Under repeat all with nothing ambient, as many steps as the queue has items bring the cursor back to its start. |
| Player.CursorPromotes | frontend/js/src/common/brainzplayer/BrainzPlayer.tsx:507-516 | At the end of the main queue, `n` steps append the first `n` ambient items in order. The cursor follows the last item moved. |
| Player.RepeatAllFullCycle | frontend/js/src/common/brainzplayer/BrainzPlayer.tsx:481-535 | Under repeat all with nothing ambient, queue-length calls of `playNextTrack` return to the same queue, index and listen. |
| Player.WalkToLast | frontend/js/src/common/brainzplayer/BrainzPlayer.tsx:496-501 | Outside repeat one with nothing ambient, the player reaches the last item after the number of items left, with its queues unchanged. |
| Player.StopAtLast | frontend/js/src/common/brainzplayer/BrainzPlayer.tsx:517-522 | Under repeat off at the last item with nothing ambient, one more call changes only the timer, which stops. |
| Player.RepeatOffStopsAtEnd | frontend/js/src/common/brainzplayer/BrainzPlayer.tsx:496-522 | Under repeat off with nothing ambient, the player walks to the last item. The call after that only stops the timer and plays nothing. |
| Player.AmbientPromotions | frontend/js/src/common/brainzplayer/BrainzPlayer.tsx:507-516 | From the end of the main queue, `n` calls move the first `n` ambient items, in order, to the main queue. The last one moved is the current listen. |
| Player.FailedToPlayTrack | frontend/js/src/common/brainzplayer/BrainzPlayer.tsx:611-641 | An inactive player is left alone. While a later handle exists, the same listen is retried at the same index from data-source index + 1: the backend played is the one selection settles on from there, and nothing plays when none is selectable. Otherwise the player warns "Could not find a match", stops the timer and plays the next track. Consistency is preserved. |
| Player.InvalidateDataSource | frontend/js/src/common/brainzplayer/BrainzPlayer.tsx:326-342 | The registry becomes `Invalidate(...)` and nothing else changes except the log. A "Cannot play from this source" warning is logged iff the resolved index is non-negative and a non-empty message was given, which includes a current index past the end where nothing is removed. |
| Player.InvalidatedSourceIsNeverPlayed | frontend/js/src/common/brainzplayer/BrainzPlayer.tsx:326-342 | After a service's only handle is invalidated, a later `playListen` never starts that service. |
| Player.ClearQueue | frontend/js/src/common/brainzplayer/BrainzPlayer.tsx:726-737 | Only the item at the cursor is kept (none when the cursor is off the queue), and the cursor moves to 0. The current listen remains the sole item, and nothing else changes. |
| Player.PlayNextListenFromQueue | frontend/js/src/common/brainzplayer/BrainzPlayer.tsx:739-743 | It starts the item after the cursor. The listen is defined iff such an item exists. The queues are unchanged and the state is consistent afterwards. |
| Player.SubmissionThreshold | frontend/js/src/common/brainzplayer/BrainzPlayer.tsx:367-375 | The required playback is at most 30 s. For a known duration it is also at most the duration minus 5 s, and it is one of those two figures. |
| Player.ThresholdExamples | frontend/js/src/common/brainzplayer/BrainzPlayer.tsx:367-375 | A 40 s track needs 30 s, a 10 s track needs 5 s, and an unknown duration needs 30 s. |
| Player.CheckProgressAndSubmitListen | frontend/js/src/common/brainzplayer/BrainzPlayer.tsx:363-378 | Without a token, or once the listen has been submitted, nothing happens. Otherwise the listen is submitted iff the continuous playback reaches the threshold. At most one submission is added, and nothing else changes. |
| Player.SubmittedAtMostOnce | frontend/js/src/common/brainzplayer/BrainzPlayer.tsx:363-378 | However many checks run on one track instance, at most one listen is submitted, and none once it was. |
| Player.SubmissionExamples | frontend/js/src/common/brainzplayer/BrainzPlayer.tsx:363-378 | A 40 s track is submitted at 30 s and not at 29.999 s. A 10 s track is submitted at 5 s and not before. |
| Player.PlayerPauseChange | frontend/js/src/common/brainzplayer/BrainzPlayer.tsx:643-657 | Pausing stops the timer and resuming starts it. Nothing else changes. |
| Player.DurationChange | frontend/js/src/common/brainzplayer/BrainzPlayer.tsx:659-668 | It stores the duration. A positive duration that differs from the stored one starts the timer; the same duration again, or a non-positive one, leaves the timer as it was. Nothing else changes. |
| Player.DurationChangeIdempotent | frontend/js/src/common/brainzplayer/BrainzPlayer.tsx:659-668 | Reporting the same duration twice is reporting it once, and a paused player that hears its current duration again keeps its timer stopped. |
| Player.SeekToPositionMs | frontend/js/src/common/brainzplayer/BrainzPlayer.tsx:546-558 | An active player with a current backend seeks that backend and moves the progress. In every other case the state is unchanged. |
| Player.SeekForward | frontend/js/src/common/brainzplayer/BrainzPlayer.tsx:560-562 | With a current backend, the progress moves 5000 ms forward. |
| Player.SeekBackward | frontend/js/src/common/brainzplayer/BrainzPlayer.tsx:564-566 | With a current backend, the progress moves 5000 ms back. |
| Player.SeekRoundTrip | frontend/js/src/common/brainzplayer/BrainzPlayer.tsx:560-566 | Seeking forward and then back returns to the same progress. |
| ArtistEvolution.Lookup | frontend/js/src/user/stats/components/UserArtistEvolutionActivity.tsx:71 | `timeUnit[artist]` is missing iff no property has that name. Otherwise the result is the value of a property with that name. |
| ArtistEvolution.AddCount | frontend/js/src/user/stats/components/UserArtistEvolutionActivity.tsx:46-49 | Only the artist's total grows, by the count. A new artist is appended after the existing names. |
| ArtistEvolution.Totals | frontend/js/src/user/stats/components/UserArtistEvolutionActivity.tsx:41-53 | There is exactly one total per artist with a numeric count, and it equals the sum of that artist's counts over all periods (for names that are not `Object.prototype` members; see "## Left out"). |
| ArtistEvolution.TotalOfEntry | frontend/js/src/user/stats/components/UserArtistEvolutionActivity.tsx:41-53 | With distinct names, each entry's total is the total read for its name. |
| ArtistEvolution.InsertPos | frontend/js/src/user/stats/components/UserArtistEvolutionActivity.tsx:56-57 | The insertion point lies behind every entry with a larger total, and in front of the first entry whose total is not larger. |
| ArtistEvolution.InsertDesc | frontend/js/src/user/stats/components/UserArtistEvolutionActivity.tsx:56-57 | Insertion adds exactly the one entry (a multiset union), one longer than before. |
| ArtistEvolution.InsertDescSorted | frontend/js/src/user/stats/components/UserArtistEvolutionActivity.tsx:56-57 | Inserting into a ranking ordered by non-increasing total keeps it ordered. |
| ArtistEvolution.SortByTotal | frontend/js/src/user/stats/components/UserArtistEvolutionActivity.tsx:56-57 | The result is a permutation of the totals, ordered by non-increasing total. |
| ArtistEvolution.InsertDescNamesAt | frontend/js/src/user/stats/components/UserArtistEvolutionActivity.tsx:56-57 | The names after an insertion are the old names with the new one spliced in at the insertion point. |
| ArtistEvolution.InsertDescNameSet | frontend/js/src/user/stats/components/UserArtistEvolutionActivity.tsx:56-57 | The names after an insertion are the old names plus the inserted entry's name. |
| ArtistEvolution.InsertDescNames | frontend/js/src/user/stats/components/UserArtistEvolutionActivity.tsx:56-57 | Inserting an entry under a new name keeps the names distinct. |
| ArtistEvolution.SortByTotalNames | frontend/js/src/user/stats/components/UserArtistEvolutionActivity.tsx:56-57 | Sorting the entries of one object keeps its names, each once. |
| ArtistEvolution.TopArtists | frontend/js/src/user/stats/components/UserArtistEvolutionActivity.tsx:55-59 | At most five distinct artists are chosen, all with counts, in non-increasing order of their summed counts. An artist left out means five were chosen, and its sum is at most the fifth one's. |
| ArtistEvolution.TopNamesDistinct | frontend/js/src/user/stats/components/UserArtistEvolutionActivity.tsx:58-59 | The first five names of the ranking are distinct. |
| ArtistEvolution.TopNamesRanked | frontend/js/src/user/stats/components/UserArtistEvolutionActivity.tsx:58-59 | At most five names are taken, each an artist with a count, in non-increasing order of summed counts. |
| ArtistEvolution.TopNamesArtists | frontend/js/src/user/stats/components/UserArtistEvolutionActivity.tsx:58-59 | Each name taken is an artist with a count. |
| ArtistEvolution.TopNamesOrdered | frontend/js/src/user/stats/components/UserArtistEvolutionActivity.tsx:56-59 | The names taken come in non-increasing order of summed counts. |
| ArtistEvolution.TopNamesCut | frontend/js/src/user/stats/components/UserArtistEvolutionActivity.tsx:56-59 | An artist not taken means five were taken, and its sum is at most the fifth one's. |
| ArtistEvolution.RankedArtist | frontend/js/src/user/stats/components/UserArtistEvolutionActivity.tsx:55-59 | A name among the first places of the ranking belongs to an artist with a count. |
| ArtistEvolution.RankOf | frontend/js/src/user/stats/components/UserArtistEvolutionActivity.tsx:55-59 | Every artist with a count has a place in the ranking. |
| ArtistEvolution.OutsideTopRanksLower | frontend/js/src/user/stats/components/UserArtistEvolutionActivity.tsx:58 | A name not in the first five places means the cut was made at five, with a total no larger than the fifth. |
| ArtistEvolution.RankedTotals | frontend/js/src/user/stats/components/UserArtistEvolutionActivity.tsx:41-57 | Every ranked entry carries its artist's summed count. |
| ArtistEvolution.Cell | frontend/js/src/user/stats/components/UserArtistEvolutionActivity.tsx:70-71 | A cell holds the period's value for the artist when that value is truthy, and 0 otherwise (inherited `Object.prototype` members are not modelled; see "## Left out"). |
| ArtistEvolution.FillRow | frontend/js/src/user/stats/components/UserArtistEvolutionActivity.tsx:69-72 | Every top artist gets its cell and the other properties keep their values. The row's keys are the old keys plus the artists. |
| ArtistEvolution.ChartRow | frontend/js/src/user/stats/components/UserArtistEvolutionActivity.tsx:62-75 | A row has the key `id` plus one key per top artist. Each artist's cell is filled, and `id` is the period index in decimal unless an artist named `id` overwrote it. |
| ArtistEvolution.TransformArtistEvolutionData | frontend/js/src/user/stats/components/UserArtistEvolutionActivity.tsx:22-78 | A missing or empty result gives an empty chart. Otherwise the chart has one row per period, in order, and the keys are the top artists: at most five, none twice. |
| ArtistEvolution.OrderedTimeUnits | frontend/js/src/user/stats/components/UserArtistEvolutionActivity.tsx:164-206 | The first matching substring decides: "week" gives the weekdays, "month" the numbers 1..30, and "year" the month names. "all_time" gives the years from the offset year to the current year (none when that span is negative). Each number label is in canonical decimal form (no leading zero, no "-0") with the stated value, which fixes it as the string `toString()` gives. Anything else gives five "Period" labels. |
| ArtistEvolution.MonthLabelsExact | frontend/js/src/user/stats/components/UserArtistEvolutionActivity.tsx:179-180 | The month labels are exactly "1", "9", "10" and "30" at positions 0, 8, 9 and 29, with no zero padding. |
| ArtistEvolution.AllTimeLabelsDistinct | frontend/js/src/user/stats/components/UserArtistEvolutionActivity.tsx:198-204 | The all-time labels are pairwise distinct. |
| ArtistEvolution.AxisLabel | frontend/js/src/user/stats/components/UserArtistEvolutionActivity.tsx:81-102 | A missing label gives "". For exactly "week" and "year" the label is cut to its first three characters. Every other range shows the whole label. |
| ArtistEvolution.AxisLabelExamples | frontend/js/src/user/stats/components/UserArtistEvolutionActivity.tsx:81-102 | The labels include "Mon" and "Sep", a full "Monday" for `this_week`, and "" off either end. |
| ArtistEvolution.UpdateChart | frontend/js/src/user/stats/components/UserArtistEvolutionActivity.tsx:149-214 | A non-empty result gives one row per period, at most five keys and the ordered labels. Anything else clears all three. |
| LibreFmImporter.Apply | frontend/js/src/lastfm/LibreFMImporter.tsx:55-56 | The converted collection is `applicable` applied element by element. |
| LibreFmImporter.Map | frontend/js/src/lastfm/LibreFMImporter.tsx:53-64 | The result is exactly the converted elements with a positive timestamp, in input order. Every such element is in it. |
| LibreFmImporter.CeilDiv | frontend/js/src/lastfm/LibreFMImporter.tsx:273 | `Math.ceil(a / b)`: the least integer `r` with `a <= r * b`. |
| LibreFmImporter.RateLimitDelay | frontend/js/src/lastfm/LibreFMImporter.tsx:266-278 | There is no wait without a window or after it has passed. Otherwise the window is spread over the remaining requests, rounded up, or the whole window is the wait when none remain. The wait is never negative. |
| LibreFmImporter.DelayShrinksWithRemaining | frontend/js/src/lastfm/LibreFMImporter.tsx:272-273 | More requests remaining never lengthen the wait. |
| LibreFmImporter.DelayExamples | frontend/js/src/lastfm/LibreFMImporter.tsx:266-278 | A 10 s window with 3 requests left waits 3334 ms, with none left 10000 ms, and after it has passed 0. |
| LibreFmImporter.ProgressBarPercentage | frontend/js/src/lastfm/LibreFMImporter.tsx:342-346 | Within the announced pages, the result is the completed share rounded up, in 0..100: at least 1 once a page is done, and 100 when all are done. Beyond the announced pages it is 50. With 0 of 0 pages it is NaN. |
| LibreFmImporter.PercentBounds | frontend/js/src/lastfm/LibreFMImporter.tsx:344 | A rounded-up share of completed pages lies in 0..100, is positive once a page is done, and is 100 when all are. |
| LibreFmImporter.AllFineEveryPage | frontend/js/src/lastfm/LibreFMImporter.tsx:364-375 | The loop passes pages `page` down to 1 iff each of those pages passes. |
| LibreFmImporter.ReceivePage | frontend/js/src/lastfm/LibreFMImporter.tsx:197-212 | The received count grows by the payload size. When the first track has a date, the newest timestamp becomes the larger of that date and the previous newest timestamp (`Math.max`). When it has none, the newest timestamp is the clock's. |
| LibreFmImporter.ImportPage | frontend/js/src/lastfm/LibreFMImporter.tsx:364-379 | A page passes iff it is a client error or yields a non-empty payload. A passed page counts down the page, counts one more completed, adds its kept listens to the received count and appends one progress figure. That figure is in range during a fresh run. A failed page leaves the counters. |
| LibreFmImporter.TrackedStep | frontend/js/src/lastfm/LibreFMImporter.tsx:363-416 | A passed page keeps the loop's bookkeeping: pages done once each, listens counted once, and progress in range. |
| LibreFmImporter.ImportLoop | frontend/js/src/lastfm/LibreFMImporter.tsx:363-416 | The loop completes iff every page passes. It then ends at page 0 with one completion and one progress figure per page, and a received count equal to the reference count over all pages. The run's settings are unchanged. A fresh run shows only percentages from 1 to 100. |
| LibreFmImporter.StartImport | frontend/js/src/lastfm/LibreFMImporter.tsx:432-438 | The import is incremental iff an earlier import time is positive. It stores the play count, starts from the last page with nothing completed, and carries over the received count and the newest timestamp. |
| LibreFmImporter.FinishImport | frontend/js/src/lastfm/LibreFMImporter.tsx:465-500 | The stored timestamp is the larger of the newest listen's and the earlier import's. The count-mismatch warning shows iff the import is a full one with a known play count that differs from the count received. |
| LibreFmImporter.RunImport | frontend/js/src/lastfm/LibreFMImporter.tsx:418-500 | The import finishes iff every page passes. The summary's timestamp is then at least the earlier import's, its count is the reference count, and it warns about a mismatch exactly for full imports whose count differs. |
| LibreFmImporter.MismatchOnlyOnFullImports | frontend/js/src/lastfm/LibreFMImporter.tsx:498-500 | No mismatch warning is shown for an incremental import, an unknown play count, or a matching count. |
| PersonalRecommendations.LeadingWhitespace | frontend/js/src/personal-recommendations/PersonalRecommendationsModal.tsx:65 | The result is the length of the whitespace run at the start of the string. |
| PersonalRecommendations.Normalize | frontend/js/src/personal-recommendations/PersonalRecommendationsModal.tsx:65 | `replace(/\s\s+/g, " ")` never lengthens the text, keeps whether it starts with whitespace, and leaves no two adjacent whitespace characters. |
| PersonalRecommendations.WhitespaceIsInvisible | frontend/js/src/personal-recommendations/PersonalRecommendationsModal.tsx:65 | A whitespace-only string has no visible characters. |
| PersonalRecommendations.LeadingWhitespaceOfRun | frontend/js/src/personal-recommendations/PersonalRecommendationsModal.tsx:65 | A whitespace run followed by text that does not start with whitespace is exactly the leading run. |
| PersonalRecommendations.NormalizeCollapsesRun | frontend/js/src/personal-recommendations/PersonalRecommendationsModal.tsx:65 | A maximal run of two or more whitespace characters becomes one space, and normalisation continues after it. |
| PersonalRecommendations.NormalizeKeepsSingle | frontend/js/src/personal-recommendations/PersonalRecommendationsModal.tsx:65 | A lone whitespace character, or any other character, is kept as it is. |
| PersonalRecommendations.NormalizeKeepsVisible | frontend/js/src/personal-recommendations/PersonalRecommendationsModal.tsx:65 | Normalising keeps the non-whitespace characters, in order. |
| PersonalRecommendations.NormalizeFixed | frontend/js/src/personal-recommendations/PersonalRecommendationsModal.tsx:65 | Text without adjacent whitespace is left as it is. |
| PersonalRecommendations.NormalizeIdempotent | frontend/js/src/personal-recommendations/PersonalRecommendationsModal.tsx:65 | Normalising twice is normalising once. |
| PersonalRecommendations.NormalizeFixedIff | frontend/js/src/personal-recommendations/PersonalRecommendationsModal.tsx:65 | Normalising leaves text unchanged iff the text has no adjacent whitespace. |
| PersonalRecommendations.Uniq | frontend/js/src/personal-recommendations/PersonalRecommendationsModal.tsx:74 | lodash `uniq` keeps the same elements with no repeats. A list without repeats comes back unchanged. |
| PersonalRecommendations.FirstIndex | frontend/js/src/personal-recommendations/PersonalRecommendationsModal.tsx:74 | The position of an element's first occurrence. |
| PersonalRecommendations.FirstIndexAppend | frontend/js/src/personal-recommendations/PersonalRecommendationsModal.tsx:74 | Appending does not move the first occurrence of an element already present. |
| PersonalRecommendations.UniqOrderStep | frontend/js/src/personal-recommendations/PersonalRecommendationsModal.tsx:74 | Appending a new last element after the first occurrences, in order, gives the first occurrences of the longer list, in order. |
| PersonalRecommendations.UniqKeepsFirstOccurrenceOrder | frontend/js/src/personal-recommendations/PersonalRecommendationsModal.tsx:74 | `uniq` lists the elements in the order of their first occurrences. |
| PersonalRecommendations.Opened | frontend/js/src/personal-recommendations/PersonalRecommendationsModal.tsx:27-30 | The dialog opens with no recipients, no suggestions and an empty message, and is valid. |
| PersonalRecommendations.FollowersLoaded | frontend/js/src/personal-recommendations/PersonalRecommendationsModal.tsx:52-60 | Loaded followers replace the search list and nothing else changes. |
| PersonalRecommendations.AddUser | frontend/js/src/personal-recommendations/PersonalRecommendationsModal.tsx:73-76 | The user is a recipient afterwards, and the recipients are the old ones plus the user, without repeats. A new user is appended, and a known one changes nothing. The suggestions close. |
| PersonalRecommendations.AddUserIdempotent | frontend/js/src/personal-recommendations/PersonalRecommendationsModal.tsx:73-76 | Adding the same user twice is adding them once. |
| PersonalRecommendations.RemoveUser | frontend/js/src/personal-recommendations/PersonalRecommendationsModal.tsx:78-80 | The user is no longer a recipient and every other recipient stays. Removing an absent user changes nothing, and only the recipient list changes. |
| PersonalRecommendations.FilterKeepsAll | frontend/js/src/personal-recommendations/PersonalRecommendationsModal.tsx:79 | Filtering with a test every element passes returns the list unchanged. |
| PersonalRecommendations.FilterSameTest | frontend/js/src/personal-recommendations/PersonalRecommendationsModal.tsx:85-87 | Filtering with two tests that agree everywhere gives the same result. |
| PersonalRecommendations.RemoveUserKeepsOrder | frontend/js/src/personal-recommendations/PersonalRecommendationsModal.tsx:78-80 | Removing a recipient takes them out of their place and keeps the others in order. |
| PersonalRecommendations.AddThenRemove | frontend/js/src/personal-recommendations/PersonalRecommendationsModal.tsx:73-80 | Adding a new recipient and then removing them restores the list. |
| PersonalRecommendations.SearchUsers | frontend/js/src/personal-recommendations/PersonalRecommendationsModal.tsx:82-94 | An empty query closes the suggestions. Any other query suggests exactly the followers whose lower-cased name contains the lower-cased query. Only the suggestions change. |
| PersonalRecommendations.SearchKeepsFollowerOrder | frontend/js/src/personal-recommendations/PersonalRecommendationsModal.tsx:85-87 | Suggestions come in follower order. |
| PersonalRecommendations.SearchIgnoresCase | frontend/js/src/personal-recommendations/PersonalRecommendationsModal.tsx:85-87 | Queries that differ only in letter case suggest the same followers. |
| PersonalRecommendations.BlurbInputChange | frontend/js/src/personal-recommendations/PersonalRecommendationsModal.tsx:62-71 | The normalised text replaces the message iff it is at most 280 characters. Otherwise the message stays, and nothing else changes. |
| PersonalRecommendations.Step | frontend/js/src/personal-recommendations/PersonalRecommendationsModal.tsx:52-94 | Every user action keeps the recipients distinct and the message capped and free of whitespace runs. |
| PersonalRecommendations.AlwaysValid | frontend/js/src/personal-recommendations/PersonalRecommendationsModal.tsx:62-94 | After any sequence of actions the dialog is valid and the message has at most 280 characters. |
| PersonalRecommendations.BuildMetadata | frontend/js/src/personal-recommendations/PersonalRecommendationsModal.tsx:100-113 | The metadata carries the recipients and the message. Each recording identifier is included iff it is present, and then unchanged. |
| PersonalRecommendations.SuccessTitle | frontend/js/src/personal-recommendations/PersonalRecommendationsModal.tsx:124-126 | The title starts with the fixed text and ends in "s" iff there is more than one recipient. |
| PersonalRecommendations.LeadingDigits | frontend/js/src/personal-recommendations/PersonalRecommendationsModal.tsx:124 | The result is a prefix made only of digits. |
| PersonalRecommendations.LeadingDigitsOf | frontend/js/src/personal-recommendations/PersonalRecommendationsModal.tsx:124 | Digits followed by a non-digit read back as exactly those digits. |
| PersonalRecommendations.SuccessTitleCount | frontend/js/src/personal-recommendations/PersonalRecommendationsModal.tsx:124-126 | The recipient count reads back from the title. |
| PersonalRecommendations.SuccessTitleInjective | frontend/js/src/personal-recommendations/PersonalRecommendationsModal.tsx:124-126 | Different recipient counts give different titles. |
| PersonalRecommendations.SuccessTitleExamples | frontend/js/src/personal-recommendations/PersonalRecommendationsModal.tsx:124-126 | The titles are "… to 1 user" and "… to 2 users". |
| PersonalRecommendations.Submit | frontend/js/src/personal-recommendations/PersonalRecommendationsModal.tsx:96-138 | Something is sent iff there is an auth token, and what is sent is the assembled metadata. The success title shows iff the status is 200, and it names the number of recipients. |
| Text.NatToString | frontend/js/src/user/stats/components/UserArtistEvolutionActivity.tsx:65 | `toString()` of a natural number gives a non-empty digit string with no leading zero, starting with "0" only for 0. |
| Text.IntToString | frontend/js/src/user/stats/components/UserArtistEvolutionActivity.tsx:202 | `toString()` of an integer gives a non-empty string that starts with '-' iff the integer is negative. |
| Text.ParseNatToString | frontend/js/src/user/stats/components/UserArtistEvolutionActivity.tsx:65 | Reading back the decimal notation of a natural number gives the number. |
| Text.NatToStringInjective | frontend/js/src/user/stats/components/UserArtistEvolutionActivity.tsx:65 | Different numbers have different decimal notations, so the row ids are distinct. |
| Text.ParseIntToString | frontend/js/src/user/stats/components/UserArtistEvolutionActivity.tsx:201-203 | The decimal notation of an integer is in canonical form and reads back as the integer. |
| Text.CanonicalDigitsAreNatToString | frontend/js/src/user/stats/components/UserArtistEvolutionActivity.tsx:180 | Conversely, a digit string with no leading zero is the notation `toString()` gives for its value. |
| Text.DecimalIsIntToString | frontend/js/src/user/stats/components/UserArtistEvolutionActivity.tsx:200-203 | Every canonical decimal string equals the notation of its value, so two canonical strings with the same value are identical. |
| Text.Lower | frontend/js/src/personal-recommendations/PersonalRecommendationsModal.tsx:86 | `toLower` keeps the length and lower-cases each character on its own. |
| Text.ContainsAt | frontend/js/src/personal-recommendations/PersonalRecommendationsModal.tsx:86 | `includes` holds iff the query occurs at some position of the name. |
| Text.Prefix | frontend/js/src/user/stats/components/UserArtistEvolutionActivity.tsx:91 | `substring(0, n)` is a prefix of length `min(n, length)`. |
| Common.Filter | frontend/js/src/personal-recommendations/PersonalRecommendationsModal.tsx:79 | `filter` keeps exactly the elements that pass the test, and never adds any. |
| Common.FilterConcat | frontend/js/src/common/brainzplayer/BrainzPlayer.tsx:235-237 | Filtering distributes over concatenation, so it keeps the order. |
| Common.FilterNoDup | frontend/js/src/common/brainzplayer/BrainzPlayer.tsx:224-237 | Filtering a list without repeats gives a list without repeats. |

## Left out

- Timing machinery is not modelled: the debounced and throttled calls, the 400 ms playback
  timer, the 200 ms activation poll and the `setTimeout` waits. A play is issued at once, and
  the debounced check's flush in `playNextTrack` is not represented.
- The browser side of the player is not modelled: window titles, the media session,
  notifications, toasts (apart from the warning titles), cross-tab sync and the
  `current-listen-change` post (apart from one log entry). These are I/O.
- The services' `hasPermissions`, `isListenFromThisService` and `canSearchAndPlayTracks` are
  parameters. The players' own playback code, and `submitCurrentListen` /
  `submitNowPlaying` from the listen-submission hook, are not part of this model. A
  submission is a log entry plus the submitted flag.
- Player.PlayListen: every handle is assumed mounted, so `dataSourceRefs[i]?.current` is
  missing only past the end of the registry.
- Player.InvalidateDataSource: a handle is identified by its service key, where the source
  compares ref objects. The registry built here has one handle per service. The removal is
  kept for good. In the source, `dataSourceRefs` is memoised on `sortedDataSources`, which is
  a fresh array at every render (BrainzPlayer.tsx:235-267). The list is therefore rebuilt at
  the next render, and the spliced handle comes back. Rendering is not modelled.
- Player.PlayNextTrack: the final "No listens to play" warning after restarting at index 0
  (BrainzPlayer.tsx:527-532) is not a separate branch. That point is reached only with a
  non-empty main queue, so the warning there cannot fire.
- The other event handlers are not modelled: `trackInfoChange`, `togglePlay`, `progressChange`
  timing, the queue atoms' own editing operations and `playAmbientQueue`. They lie outside the
  orchestration logic modelled here. The queue atoms are not part of this model:
  `addListenToBottomOfQueue` is taken to append the item unchanged.
- ArtistEvolution.TopArtists: `Object.entries` lists integer-like keys first, in numeric order.
  The model keeps all keys in first-seen order, so the order among equal totals can differ for
  artists named like numbers. The set of unused `allArtistNames` is not modelled.
- ArtistEvolution.Totals: every artist name is treated as an own key of a plain map. In the
  source, `artistTotals` is a `{}` literal, so its reads go through `Object.prototype`
  (UserArtistEvolutionActivity.tsx:46-49). For a name such as "constructor", "toString" or
  "valueOf", `!artistTotals[artist]` sees the inherited function. The total is then never
  reset to 0, and `+= count` turns it into a string such as
  "function Object() { [native code] }5". The comparator `b - a` then gives NaN, so the sort
  order is unspecified. For "__proto__", the assignment is discarded, so that artist never
  reaches `Object.entries` or the keys. The model instead gives every name its numeric sum.
- ArtistEvolution.Cell: a period that lacks a top artist's name reads 0 here. In the source,
  `timeUnit[artist]` (UserArtistEvolutionActivity.tsx:71) finds an `Object.prototype` member
  of that name, a truthy function, and stores it as the cell.
- ArtistEvolution.OrderedTimeUnits: the current year is a parameter instead of a clock read.
- LibreFmImporter.ProgressBarPercentage: uses exact arithmetic. The source's floating-point
  `Math.ceil(c / t * 100)` can round one higher; 7 of 25 pages gives 29 there. A division by
  zero with pages completed gives `MinusInfinity`, and negative inputs follow exact
  arithmetic.
- LibreFmImporter.RateLimitDelay: the rate-limit figures are whole numbers and the clock is in
  whole milliseconds. Missing or non-numeric headers (`Number(...)` giving NaN) are not
  modelled.
- LibreFmImporter.ImportLoop: the clock value `nowSec` used for an undated first track is one
  value for the whole loop. `getPage`'s retries, its 3 s waits and the HTTP status handling
  are collapsed into the page outcome `fetch(page)`. Submitting a page is recorded without
  waiting for it, as the source does not await it, and its rate-limit update is left out.
  The progress message and `lastImportedString` (`toLocaleString`) are not modelled.
- LibreFmImporter.RunImport: fetching the latest import, the play count, the page count and
  the privacy flag is not modelled; their results are parameters. The private-profile variant
  of the final message and the `setLatestImport` retry are also left out.
- PersonalRecommendations.BlurbInputChange: lengths count Unicode code points. JavaScript
  counts UTF-16 code units, so text with characters outside the Basic Multilingual Plane is
  measured shorter here.
- PersonalRecommendations.SearchUsers: lower-casing is ASCII only. lodash `toLower` uses the
  full Unicode `toLowerCase`.
- PersonalRecommendations.Submit: an error thrown by the request is treated like a non-200
  answer (no success title). Hiding the modal, the error toast and loading the followers'
  error path are not modelled.

=== FILE: artist_evolution.dfy ===
/** The artist-evolution stream chart's data preparation
    (frontend/js/src/user/stats/components/UserArtistEvolutionActivity.tsx): per-period
    artist→count objects become one chart row per period holding the five artists with the
    largest totals, plus the axis labels for the chosen stats range. */
module ArtistEvolution {
  import opened Common
  import opened Text

  /** A property value of a period object. Only numbers take part in the totals; any value is
      copied into a chart cell when it is truthy. */
  datatype Value = Num(n: int) | Str(s: string) | Null

  /** JavaScript truthiness of a property value. */
  predicate Truthy(v: Value) {
    match v
    case Num(n) => n != 0
    case Str(s) => s != ""
    case Null => false
  }

  /** One period of the API result: `Some` of its own properties in order when it is an
      object, `None` when it is `null` or not an object. */
  type TimeUnit = Option<seq<(string, Value)>>

  /** The value of an artist's property in one period, if the period has it. */
  function Lookup(props: seq<(string, Value)>, artist: string): (r: Option<Value>)
    ensures r.None? <==> forall i | 0 <= i < |props| :: props[i].0 != artist
    ensures r.Some? ==> exists i | 0 <= i < |props| :: props[i] == (artist, r.value)
    decreases |props|
  {
    if |props| == 0 then None
    else if props[0].0 == artist then Some(props[0].1)
    else
      var r := Lookup(props[1..], artist);
      assert forall i | 1 <= i < |props| :: props[1..][i - 1] == props[i];
      r
  }

  // ---------------------------------------------------------------------------------------
  // Totals

  /** Every numeric count of every period, in period order and property order. */
  function NumericEntries(data: seq<TimeUnit>): (r: seq<(string, int)>)
    decreases |data|
  {
    if |data| == 0 then []
    else NumericEntries(data[..|data| - 1]) + UnitNumeric(data[|data| - 1])
  }

  function UnitNumeric(unit: TimeUnit): seq<(string, int)> {
    match unit
    case None => []
    case Some(props) => PropsNumeric(props)
  }

  function PropsNumeric(props: seq<(string, Value)>): seq<(string, int)>
    decreases |props|
  {
    if |props| == 0 then []
    else (if props[0].1.Num? then [(props[0].0, props[0].1.n)] else []) + PropsNumeric(props[1..])
  }

  /** The artists that occur in a list of counts. */
  function Artists(entries: seq<(string, int)>): (r: seq<string>)
    ensures |r| == |entries|
    ensures forall i | 0 <= i < |r| :: r[i] == entries[i].0
  {
    seq(|entries|, i requires 0 <= i < |entries| => entries[i].0)
  }

  /** The reference definition of an artist's total: the sum of its counts. */
  function SumFor(entries: seq<(string, int)>, artist: string): int
    decreases |entries|
  {
    if |entries| == 0 then 0
    else SumFor(entries[..|entries| - 1], artist)
         + (if entries[|entries| - 1].0 == artist then entries[|entries| - 1].1 else 0)
  }

  /** An entry of the `artistTotals` object. */
  datatype ArtistTotal = ArtistTotal(name: string, total: int)

  function Names(totals: seq<ArtistTotal>): (r: seq<string>)
    ensures |r| == |totals|
    ensures forall i | 0 <= i < |r| :: r[i] == totals[i].name
  {
    seq(|totals|, i requires 0 <= i < |totals| => totals[i].name)
  }

  /** `artistTotals[name]`, with a missing property read as 0. */
  function TotalOf(totals: seq<ArtistTotal>, name: string): int
    decreases |totals|
  {
    if |totals| == 0 then 0
    else if totals[0].name == name then totals[0].total
    else TotalOf(totals[1..], name)
  }

  /** One `artistTotals[artist] += count` on the object: a new property goes to the end. */
  function AddCount(totals: seq<ArtistTotal>, artist: string, count: int): (r: seq<ArtistTotal>)
    ensures Names(r) == if artist in Names(totals) then Names(totals) else Names(totals) + [artist]
    ensures forall name :: TotalOf(r, name) == TotalOf(totals, name) + (if name == artist then count else 0)
    decreases |totals|
  {
    if |totals| == 0 then [ArtistTotal(artist, count)]
    else if totals[0].name == artist then [totals[0].(total := totals[0].total + count)] + totals[1..]
    else
      var rest := AddCount(totals[1..], artist, count);
      assert Names(totals)[1..] == Names(totals[1..]);
      assert Names([totals[0]] + rest) == [totals[0].name] + Names(rest);
      assert ([totals[0]] + rest)[1..] == rest;
      [totals[0]] + rest
  }

  /** The `artistTotals` object built from the counts in order: one property per artist that
      has a count, first-seen first, holding the sum of that artist's counts. */
  function Totals(entries: seq<(string, int)>): (r: seq<ArtistTotal>)
    ensures forall a :: a in Names(r) <==> a in Artists(entries)
    ensures NoDup(Names(r))
    ensures forall a :: TotalOf(r, a) == SumFor(entries, a)
    decreases |entries|
  {
    if |entries| == 0 then []
    else
      var init := entries[..|entries| - 1];
      var last := entries[|entries| - 1];
      var prev := Totals(init);
      var r := AddCount(prev, last.0, last.1);
      assert Artists(entries) == Artists(init) + [last.0];
      assert NoDup(Names(r)) by {
        if last.0 !in Names(prev) {
          var n := Names(prev) + [last.0];
          forall i, j | 0 <= i < j < |n| ensures n[i] != n[j] {
            if j == |n| - 1 {
              assert n[i] == Names(prev)[i];
            } else {
              assert n[i] == Names(prev)[i] && n[j] == Names(prev)[j];
            }
          }
        }
      }
      r
  }

  /** With distinct names, each entry's total is what `TotalOf` reads for its name. */
  lemma {:induction false} TotalOfEntry(totals: seq<ArtistTotal>, i: int)
    requires NoDup(Names(totals)) && 0 <= i < |totals|
    ensures TotalOf(totals, totals[i].name) == totals[i].total
    decreases |totals|
  {
    if i > 0 {
      assert Names(totals)[0] != Names(totals)[i];
      assert NoDup(Names(totals[1..])) by {
        forall p, q | 0 <= p < q < |totals| - 1 ensures Names(totals[1..])[p] != Names(totals[1..])[q] {
          assert Names(totals)[p + 1] != Names(totals)[q + 1];
        }
      }
      TotalOfEntry(totals[1..], i - 1);
    }
  }

  // ---------------------------------------------------------------------------------------
  // Ranking

  /** Non-increasing by total. */
  predicate SortedDesc(s: seq<ArtistTotal>) {
    forall i, j | 0 <= i < j < |s| :: s[i].total >= s[j].total
  }

  /** Where `x` goes in a ranking: before the first entry with a total not above its own, so
      behind every entry with a larger total. */
  function InsertPos(x: ArtistTotal, s: seq<ArtistTotal>): (k: nat)
    ensures k <= |s|
    ensures forall i | 0 <= i < k :: s[i].total > x.total
    ensures k < |s| ==> x.total >= s[k].total
    decreases |s|
  {
    if |s| == 0 || x.total >= s[0].total then 0
    else
      var k := InsertPos(x, s[1..]);
      assert forall i | 1 <= i < k + 1 :: s[i] == s[1..][i - 1];
      k + 1
  }

  /** Inserting `x` at `InsertPos`, the other entries keeping their places. */
  function InsertDesc(x: ArtistTotal, s: seq<ArtistTotal>): (r: seq<ArtistTotal>)
    ensures |r| == |s| + 1
    ensures multiset(r) == multiset(s) + multiset{x}
  {
    var k := InsertPos(x, s);
    assert s == s[..k] + s[k..];
    s[..k] + [x] + s[k..]
  }

  /** Insertion keeps a ranking ordered. */
  lemma InsertDescSorted(x: ArtistTotal, s: seq<ArtistTotal>)
    requires SortedDesc(s)
    ensures SortedDesc(InsertDesc(x, s))
  {
    var k := InsertPos(x, s);
    var r := InsertDesc(x, s);
    assert forall i | 0 <= i < |r| :: r[i] == if i < k then s[i] else if i == k then x else s[i - 1];
    forall i, j | 0 <= i < j < |r| ensures r[i].total >= r[j].total {
      if j == k {
        assert r[i] == s[i];
      } else if i == k {
        assert r[j] == s[j - 1];
        assert s[k].total >= s[j - 1].total;
      }
    }
  }

  /** The names after inserting `x`: `x`'s name spliced into the old names. */
  lemma InsertDescNamesAt(x: ArtistTotal, s: seq<ArtistTotal>)
    ensures var k := InsertPos(x, s);
      Names(InsertDesc(x, s)) == Names(s)[..k] + [x.name] + Names(s)[k..]
  {
    var k := InsertPos(x, s);
    var r := InsertDesc(x, s);
    var n := Names(s)[..k] + [x.name] + Names(s)[k..];
    assert |Names(r)| == |n|;
    forall i | 0 <= i < |n| ensures Names(r)[i] == n[i] {
      if i < k {
        assert r[i] == s[i];
      } else if i > k {
        assert r[i] == s[i - 1];
      }
    }
  }

  /** Inserting an entry adds its name to the names there were. */
  lemma InsertDescNameSet(x: ArtistTotal, s: seq<ArtistTotal>)
    ensures forall a :: a in Names(InsertDesc(x, s)) <==> a == x.name || a in Names(s)
  {
    var k := InsertPos(x, s);
    InsertDescNamesAt(x, s);
    assert Names(s) == Names(s)[..k] + Names(s)[k..];
  }

  /** Inserting an entry under a new name keeps the names distinct. */
  lemma InsertDescNames(x: ArtistTotal, s: seq<ArtistTotal>)
    requires NoDup(Names(s)) && x.name !in Names(s)
    ensures NoDup(Names(InsertDesc(x, s)))
  {
    InsertDescNamesAt(x, s);
    NoDupInsert(Names(s), InsertPos(x, s), x.name);
  }

  /** Ranking an object's entries keeps their names distinct. */
  lemma {:induction false} SortByTotalNames(s: seq<ArtistTotal>)
    requires NoDup(Names(s))
    ensures forall a :: a in Names(SortByTotal(s)) <==> a in Names(s)
    ensures NoDup(Names(SortByTotal(s)))
    decreases |s|
  {
    if |s| > 0 {
      var tail := s[1..];
      var rest := SortByTotal(tail);
      assert SortByTotal(s) == InsertDesc(s[0], rest);
      assert && NoDup(Names(tail)) && s[0].name !in Names(tail)
             && forall a :: a in Names(s) <==> a == s[0].name || a in Names(tail) by {
        assert Names(s) == [s[0].name] + Names(tail);
        NoDupCons(s[0].name, Names(tail));
      }
      SortByTotalNames(tail);
      InsertDescNameSet(s[0], rest);
      InsertDescNames(s[0], rest);
    }
  }

  /** `sort(([, a], [, b]) => b - a)`: by non-increasing total, a permutation of the input. */
  function SortByTotal(s: seq<ArtistTotal>): (r: seq<ArtistTotal>)
    ensures |r| == |s|
    ensures multiset(r) == multiset(s)
    ensures SortedDesc(r)
    decreases |s|
  {
    if |s| == 0 then []
    else
      assert s == [s[0]] + s[1..];
      var rest := SortByTotal(s[1..]);
      InsertDescSorted(s[0], rest);
      InsertDesc(s[0], rest)
  }

  const TopCount := 5

  /** The names of the first `TopCount` places of the ranking (fewer when there are fewer). */
  function TopNames(entries: seq<(string, int)>): seq<string> {
    var sorted := SortByTotal(Totals(entries));
    Names(sorted[..if |sorted| < TopCount then |sorted| else TopCount])
  }

  /** `topArtists`: the names of the (at most) five largest totals, largest first. Every other
      artist with a count has a total no larger than the last of them. */
  function TopArtists(entries: seq<(string, int)>): (keys: seq<string>)
    ensures |keys| <= TopCount
    ensures NoDup(keys)
    ensures forall a | a in keys :: a in Artists(entries)
    ensures forall i, j | 0 <= i < j < |keys| :: SumFor(entries, keys[i]) >= SumFor(entries, keys[j])
    ensures forall a | a in Artists(entries) && a !in keys ::
      |keys| == TopCount && SumFor(entries, a) <= SumFor(entries, keys[TopCount - 1])
  {
    TopNamesDistinct(entries);
    TopNamesRanked(entries);
    TopNamesCut(entries);
    TopNames(entries)
  }

  lemma TopNamesDistinct(entries: seq<(string, int)>)
    ensures NoDup(TopNames(entries))
  {
    var sorted := SortByTotal(Totals(entries));
    var n := if |sorted| < TopCount then |sorted| else TopCount;
    SortByTotalNames(Totals(entries));
    assert TopNames(entries) == Names(sorted)[..n];
  }

  lemma TopNamesRanked(entries: seq<(string, int)>)
    ensures |TopNames(entries)| <= TopCount
    ensures forall a | a in TopNames(entries) :: a in Artists(entries)
    ensures forall i, j | 0 <= i < j < |TopNames(entries)| ::
      SumFor(entries, TopNames(entries)[i]) >= SumFor(entries, TopNames(entries)[j])
  {
    TopNamesArtists(entries);
    TopNamesOrdered(entries);
  }

  lemma TopNamesArtists(entries: seq<(string, int)>)
    ensures forall a | a in TopNames(entries) :: a in Artists(entries)
  {
    var sorted := SortByTotal(Totals(entries));
    var n := if |sorted| < TopCount then |sorted| else TopCount;
    forall a | a in TopNames(entries) ensures a in Artists(entries) {
      RankedArtist(entries, sorted, n, a);
    }
  }

  lemma TopNamesOrdered(entries: seq<(string, int)>)
    ensures forall i, j | 0 <= i < j < |TopNames(entries)| ::
      SumFor(entries, TopNames(entries)[i]) >= SumFor(entries, TopNames(entries)[j])
  {
    var totals := Totals(entries);
    var sorted := SortByTotal(totals);
    var keys := TopNames(entries);
    RankedTotals(entries, totals, sorted);
    forall i, j | 0 <= i < j < |keys| ensures SumFor(entries, keys[i]) >= SumFor(entries, keys[j]) {
      assert keys[i] == sorted[i].name && keys[j] == sorted[j].name;
    }
  }

  lemma TopNamesCut(entries: seq<(string, int)>)
    ensures forall a | a in Artists(entries) && a !in TopNames(entries) ::
      |TopNames(entries)| == TopCount && SumFor(entries, a) <= SumFor(entries, TopNames(entries)[TopCount - 1])
  {
    var totals := Totals(entries);
    var sorted := SortByTotal(totals);
    var n := if |sorted| < TopCount then |sorted| else TopCount;
    var keys := TopNames(entries);
    RankedTotals(entries, totals, sorted);
    forall a | a in Artists(entries) && a !in keys
      ensures |keys| == TopCount && SumFor(entries, a) <= SumFor(entries, keys[TopCount - 1])
    {
      var j := RankOf(entries, sorted, a);
      OutsideTopRanksLower(sorted, n, j);
    }
  }

  /** A name in the first `n` places of the ranking is an artist with a count. */
  lemma RankedArtist(entries: seq<(string, int)>, sorted: seq<ArtistTotal>, n: int, a: string)
    requires multiset(sorted) == multiset(Totals(entries)) && 0 <= n <= |sorted|
    requires a in Names(sorted[..n])
    ensures a in Artists(entries)
  {
    var i :| 0 <= i < n && Names(sorted[..n])[i] == a;
    assert sorted[i] in multiset(Totals(entries));
    var t :| 0 <= t < |Totals(entries)| && Totals(entries)[t] == sorted[i];
    assert Names(Totals(entries))[t] == a;
  }

  /** Where an artist with a count sits in the ranking. */
  lemma RankOf(entries: seq<(string, int)>, sorted: seq<ArtistTotal>, a: string) returns (j: int)
    requires multiset(sorted) == multiset(Totals(entries))
    requires a in Artists(entries)
    ensures 0 <= j < |sorted| && sorted[j].name == a
  {
    var totals := Totals(entries);
    assert a in Names(totals);
    var t :| 0 <= t < |totals| && Names(totals)[t] == a;
    assert totals[t] in multiset(sorted);
    j :| 0 <= j < |sorted| && sorted[j] == totals[t];
  }

  /** In an ordered ranking, a name that did not make the first `n` places sits behind them,
      so the cut was made at five and its total is no larger than the fifth. */
  lemma OutsideTopRanksLower(sorted: seq<ArtistTotal>, n: int, j: int)
    requires SortedDesc(sorted) && n == (if |sorted| < TopCount then |sorted| else TopCount)
    requires 0 <= j < |sorted| && sorted[j].name !in Names(sorted[..n])
    ensures n == TopCount && sorted[j].total <= sorted[TopCount - 1].total
  {
  }

  /** Every entry of the ranking carries its artist's total, and the ranking is ordered. */
  lemma RankedTotals(entries: seq<(string, int)>, totals: seq<ArtistTotal>, sorted: seq<ArtistTotal>)
    requires totals == Totals(entries) && multiset(sorted) == multiset(totals)
    ensures forall i | 0 <= i < |sorted| :: sorted[i].total == SumFor(entries, sorted[i].name)
  {
    forall i | 0 <= i < |sorted| ensures sorted[i].total == SumFor(entries, sorted[i].name) {
      assert sorted[i] in multiset(totals);
      var t :| 0 <= t < |totals| && totals[t] == sorted[i];
      TotalOfEntry(totals, t);
    }
  }

  // ---------------------------------------------------------------------------------------
  // Chart rows

  /** A chart row: a `StreamDataItem` object. */
  type Row = map<string, Value>

  /** `(timeUnit && typeof timeUnit === "object" && timeUnit[artist]) || 0`. */
  function Cell(unit: TimeUnit, artist: string): (v: Value)
    ensures Truthy(v) ==> unit.Some? && Lookup(unit.value, artist) == Some(v)
    ensures !Truthy(v) ==> v == Num(0)
    ensures unit.Some? && Lookup(unit.value, artist).Some? && Truthy(Lookup(unit.value, artist).value) ==>
      v == Lookup(unit.value, artist).value
  {
    if unit.Some? then
      var v := Lookup(unit.value, artist);
      if v.Some? && Truthy(v.value) then v.value else Num(0)
    else Num(0)
  }

  /** `topArtists.forEach((artist) => { result[artist] = ... })`. */
  function FillRow(row: Row, unit: TimeUnit, artists: seq<string>): (r: Row)
    ensures r.Keys == row.Keys + set a | a in artists
    ensures forall a | a in artists :: r[a] == Cell(unit, a)
    ensures forall k | k in row && k !in artists :: r[k] == row[k]
    decreases |artists|
  {
    if |artists| == 0 then row
    else
      var r := FillRow(row[artists[0] := Cell(unit, artists[0])], unit, artists[1..]);
      assert forall a | a in artists :: a == artists[0] || a in artists[1..];
      r
  }

  /** The row of period `index`: its `id` and one cell per top artist. An artist called "id"
      overwrites the `id` property. */
  function ChartRow(unit: TimeUnit, index: nat, keys: seq<string>): (r: Row)
    ensures r.Keys == {"id"} + set a | a in keys
    ensures forall a | a in keys :: r[a] == Cell(unit, a)
    ensures "id" !in keys ==> r["id"] == Str(NatToString(index))
  {
    FillRow(map["id" := Str(NatToString(index))], unit, keys)
  }

  datatype Chart = Chart(data: seq<Row>, keys: seq<string>)

  /** `transformArtistEvolutionData`. A missing or empty result gives an empty chart; otherwise
      one row per period, in period order. */
  function TransformArtistEvolutionData(raw: Option<seq<TimeUnit>>): (r: Chart)
    ensures raw.None? || |raw.value| == 0 ==> r.data == [] && r.keys == []
    ensures raw.Some? ==> |r.data| == |raw.value| && r.keys == TopArtists(NumericEntries(raw.value))
    ensures |r.keys| <= TopCount && NoDup(r.keys)
    ensures raw.Some? ==> forall i | 0 <= i < |r.data| ::
      && r.data[i].Keys == {"id"} + (set a | a in r.keys)
      && (forall a | a in r.keys :: r.data[i][a] == Cell(raw.value[i], a))
      && ("id" !in r.keys ==> r.data[i]["id"] == Str(NatToString(i)))
  {
    if raw.None? || |raw.value| == 0 then Chart([], [])
    else
      var data := raw.value;
      var keys := TopArtists(NumericEntries(data));
      Chart(seq(|data|, i requires 0 <= i < |data| => ChartRow(data[i], i, keys)), keys)
  }

  // ---------------------------------------------------------------------------------------
  // Axis labels

  const WeekDays: seq<string> := ["Monday", "Tuesday", "Wednesday", "Thursday", "Friday", "Saturday", "Sunday"]
  const MonthNames: seq<string> := ["January", "February", "March", "April", "May", "June", "July",
                                    "August", "September", "October", "November", "December"]
  const Periods: seq<string> := ["Period 1", "Period 2", "Period 3", "Period 4", "Period 5"]

  /** `getOrderedTimeUnits(range, offsetYear)`, the first matching substring deciding, with the
      current year passed in. */
  function OrderedTimeUnits(range: string, offsetYear: int, currentYear: int): (r: seq<string>)
    ensures Contains(range, "week") ==> r == WeekDays
    ensures !Contains(range, "week") && Contains(range, "month") ==>
      |r| == 30 && forall i | 0 <= i < 30 :: IsDecimal(r[i]) && ParseInt(r[i]) == i + 1
    ensures !Contains(range, "week") && !Contains(range, "month") && Contains(range, "year") ==> r == MonthNames
    ensures !Contains(range, "week") && !Contains(range, "month") && !Contains(range, "year") && Contains(range, "all_time") ==>
      && |r| == (if currentYear - offsetYear + 1 < 0 then 0 else currentYear - offsetYear + 1)
      && forall i | 0 <= i < |r| :: IsDecimal(r[i]) && ParseInt(r[i]) == offsetYear + i
    ensures !Contains(range, "week") && !Contains(range, "month") && !Contains(range, "year") && !Contains(range, "all_time") ==>
      r == Periods
  {
    if Contains(range, "week") then WeekDays
    else if Contains(range, "month") then
      var r := seq(30, i requires 0 <= i < 30 => IntToString(i + 1));
      assert forall i | 0 <= i < 30 :: IsDecimal(r[i]) && ParseInt(r[i]) == i + 1 by {
        forall i | 0 <= i < 30 ensures IsDecimal(r[i]) && ParseInt(r[i]) == i + 1 {
          ParseIntToString(i + 1);
        }
      }
      r
    else if Contains(range, "year") then MonthNames
    else if Contains(range, "all_time") then
      var length := if currentYear - offsetYear + 1 < 0 then 0 else currentYear - offsetYear + 1;
      var r := seq(length, i requires 0 <= i < length => IntToString(offsetYear + i));
      assert forall i | 0 <= i < |r| :: IsDecimal(r[i]) && ParseInt(r[i]) == offsetYear + i by {
        forall i | 0 <= i < |r| ensures IsDecimal(r[i]) && ParseInt(r[i]) == offsetYear + i {
          ParseIntToString(offsetYear + i);
        }
      }
      r
    else Periods
  }

  /** The month labels are exactly "1" to "30", with no padding: the contract's canonical
      decimal form leaves no other choice for each value. */
  lemma MonthLabelsExact(range: string, offsetYear: int, currentYear: int)
    requires !Contains(range, "week") && Contains(range, "month")
    ensures var r := OrderedTimeUnits(range, offsetYear, currentYear);
      r[0] == "1" && r[8] == "9" && r[9] == "10" && r[29] == "30"
  {
    var r := OrderedTimeUnits(range, offsetYear, currentYear);
    DecimalIsIntToString(r[0]);
    DecimalIsIntToString(r[8]);
    DecimalIsIntToString(r[9]);
    DecimalIsIntToString(r[29]);
  }

  /** The all-time labels name distinct years, oldest first. */
  lemma AllTimeLabelsDistinct(range: string, offsetYear: int, currentYear: int)
    requires !Contains(range, "week") && !Contains(range, "month") && !Contains(range, "year") && Contains(range, "all_time")
    ensures var r := OrderedTimeUnits(range, offsetYear, currentYear);
      forall i, j | 0 <= i < j < |r| :: r[i] != r[j]
  {
    var r := OrderedTimeUnits(range, offsetYear, currentYear);
    forall i, j | 0 <= i < j < |r| ensures r[i] != r[j] {
      assert ParseInt(r[i]) != ParseInt(r[j]);
    }
  }

  /** The formatter `getAxisFormatter(range, orderedTimeUnits)` returns, applied to `index`:
      "" where there is no label, the first three characters for the exact ranges "week" and
      "year", the label itself otherwise. */
  function AxisLabel(range: string, orderedTimeUnits: seq<string>, index: int): (r: string)
    ensures !(0 <= index < |orderedTimeUnits|) ==> r == ""
    ensures 0 <= index < |orderedTimeUnits| ==> r <= orderedTimeUnits[index]
    ensures 0 <= index < |orderedTimeUnits| && (range == "week" || range == "year") ==>
      |r| == (if |orderedTimeUnits[index]| < 3 then |orderedTimeUnits[index]| else 3)
    ensures 0 <= index < |orderedTimeUnits| && range != "week" && range != "year" ==> r == orderedTimeUnits[index]
  {
    if !(0 <= index < |orderedTimeUnits|) || orderedTimeUnits[index] == "" then ""
    else if range == "week" || range == "year" then Prefix(orderedTimeUnits[index], 3)
    else orderedTimeUnits[index]
  }

  lemma AxisLabelExamples()
    ensures AxisLabel("week", WeekDays, 0) == "Mon"
    ensures AxisLabel("year", MonthNames, 8) == "Sep"
    ensures AxisLabel("this_week", WeekDays, 0) == "Monday"
    ensures AxisLabel("week", WeekDays, 7) == ""
    ensures AxisLabel("month", ["1", "2"], -1) == ""
  {
    assert WeekDays[0][..3] == "Mon";
    assert MonthNames[8][..3] == "Sep";
  }

  // ---------------------------------------------------------------------------------------
  // The component's effect

  /** What the chart shows after the data-transforming effect runs. */
  datatype ChartView = ChartView(chartData: seq<Row>, keys: seq<string>, orderedTimeUnits: seq<string>)

  /** The effect on `rawData`: a non-empty result array is transformed and its labels computed;
      anything else clears the chart. */
  function UpdateChart(result: Option<seq<TimeUnit>>, offsetYear: int, range: string, currentYear: int): (v: ChartView)
    ensures result.None? || |result.value| == 0 ==> v == ChartView([], [], [])
    ensures result.Some? && |result.value| > 0 ==>
      && |v.chartData| == |result.value| && |v.keys| <= TopCount
      && v.orderedTimeUnits == OrderedTimeUnits(range, offsetYear, currentYear)
  {
    if result.Some? && |result.value| > 0 then
      var chart := TransformArtistEvolutionData(result);
      ChartView(chart.data, chart.keys, OrderedTimeUnits(range, offsetYear, currentYear))
    else ChartView([], [], [])
  }
}

=== FILE: common.dfy ===
/** Small shared vocabulary: an optional value and order-preserving filtering of sequences. */
module Common {

  /** A value that may be missing (JavaScript's `undefined` / `null`). */
  datatype Option<+T> = None | Some(value: T) {

    /** The carried value, or `default` when missing (the `??` / default-parameter idiom). */
    function GetOr(default: T): T {
      match this
      case Some(v) => v
      case None => default
    }
  }

  /** No element occurs twice. */
  predicate NoDup<T(==)>(s: seq<T>) {
    forall i, j | 0 <= i < j < |s| :: s[i] != s[j]
  }

  /** A sequence with a head has no repeats iff its tail has none and does not hold the head. */
  lemma NoDupCons<T>(x: T, s: seq<T>)
    ensures NoDup([x] + s) <==> x !in s && NoDup(s)
  {
    var t := [x] + s;
    assert forall i | 0 <= i < |s| :: t[i + 1] == s[i];
    if x !in s && NoDup(s) {
      forall i, j | 0 <= i < j < |t| ensures t[i] != t[j] {
        assert t[j] == s[j - 1];
        if i > 0 {
          assert t[i] == s[i - 1];
        }
      }
    }
    if NoDup(t) {
      forall i, j | 0 <= i < j < |s| ensures s[i] != s[j] {
        assert t[i + 1] != t[j + 1];
      }
      forall i | 0 <= i < |s| ensures s[i] != x {
        assert t[0] != t[i + 1];
      }
    }
  }

  /** Inserting an element that is not there yet keeps a sequence free of repeats. */
  lemma NoDupInsert<T>(t: seq<T>, k: nat, y: T)
    requires k <= |t| && NoDup(t) && y !in t
    ensures NoDup(t[..k] + [y] + t[k..])
  {
    var u := t[..k] + [y] + t[k..];
    assert forall i | 0 <= i < |u| :: u[i] == if i < k then t[i] else if i == k then y else t[i - 1];
  }

  /** `Array.prototype.filter`: the elements satisfying `p`, in their original order. */
  function Filter<T(==)>(s: seq<T>, p: T -> bool): (r: seq<T>)
    ensures |r| <= |s|
    ensures forall x | x in r :: x in s && p(x)
    ensures forall x | x in s && p(x) :: x in r
    ensures forall i | 0 <= i < |r| :: p(r[i])
  {
    if |s| == 0 then []
    else if p(s[0]) then [s[0]] + Filter(s[1..], p)
    else Filter(s[1..], p)
  }

  /** Filtering distributes over concatenation, so it keeps the relative order of what it keeps. */
  lemma {:induction false} FilterConcat<T>(a: seq<T>, b: seq<T>, p: T -> bool)
    ensures Filter(a + b, p) == Filter(a, p) + Filter(b, p)
  {
    if |a| == 0 {
      assert a + b == b;
    } else {
      assert (a + b)[1..] == a[1..] + b;
      FilterConcat(a[1..], b, p);
    }
  }

  /** Filtering keeps a sequence without duplicates free of duplicates. */
  lemma {:induction false} FilterNoDup<T>(s: seq<T>, p: T -> bool)
    requires NoDup(s)
    ensures NoDup(Filter(s, p))
  {
    if |s| > 0 {
      assert s == [s[0]] + s[1..];
      NoDupCons(s[0], s[1..]);
      FilterNoDup(s[1..], p);
      if p(s[0]) {
        NoDupCons(s[0], Filter(s[1..], p));
      }
    }
  }
}

=== FILE: data_sources.dfy ===
/** The BrainzPlayer data-source registry: which playback services are enabled, in which
    priority order they are tried, and how one is removed from the list of handles
    (frontend/js/src/common/brainzplayer/BrainzPlayer.tsx). */
module DataSources {
  import opened Common

  /** The services BrainzPlayer can play through (`DataSourceKey`). */
  datatype SourceKey = Spotify | AppleMusic | Soundcloud | Youtube

  /** The `brainzplayer` part of the user preferences; `None` is a missing entry,
      which the player reads as its default. */
  datatype Preferences = Preferences(
    spotifyEnabled: Option<bool>,
    appleMusicEnabled: Option<bool>,
    soundcloudEnabled: Option<bool>,
    youtubeEnabled: Option<bool>,
    dataSourcesPriority: Option<seq<SourceKey>>)

  /** A live backend handle: the service it plays through and whether it can look a track
      up by itself (`canSearchAndPlayTracks`), fixed for the handle's lifetime here. */
  datatype DataSource = DataSource(key: SourceKey, canSearch: bool)

  lemma EveryKey(k: SourceKey)
    ensures k == Spotify || k == AppleMusic || k == Soundcloud || k == Youtube
  {
  }

  /** Whether the user left the service switched on (missing preference means on). */
  function SwitchedOn(prefs: Preferences, key: SourceKey): bool {
    match key
    case Spotify => prefs.spotifyEnabled.GetOr(true)
    case AppleMusic => prefs.appleMusicEnabled.GetOr(true)
    case Soundcloud => prefs.soundcloudEnabled.GetOr(true)
    case Youtube => prefs.youtubeEnabled.GetOr(true)
  }

  /** Every service, in the order `enabledDataSources` lists them. */
  const AllKeys := [Spotify, AppleMusic, Soundcloud, Youtube]

  /** Whether a service may be used: switched on, and granted playback unless it is YouTube,
      which needs no credentials. */
  predicate Usable(prefs: Preferences, permitted: SourceKey -> bool, k: SourceKey) {
    SwitchedOn(prefs, k) && (k == Youtube || permitted(k))
  }

  /** `enabledDataSources`: every switched-on service whose credentials grant playback.
      `permitted` stands for the services' `hasPermissions`. */
  function EnabledDataSources(prefs: Preferences, permitted: SourceKey -> bool): (r: seq<SourceKey>)
    ensures forall k :: k in r <==> SwitchedOn(prefs, k) && (k == Youtube || permitted(k))
    ensures NoDup(r)
  {
    var r := Filter(AllKeys, k => Usable(prefs, permitted, k));
    assert forall k :: k in AllKeys by {
      forall k ensures k in AllKeys {
        EveryKey(k);
      }
    }
    assert NoDup(r) by {
      FilterNoDup(AllKeys, k => Usable(prefs, permitted, k));
    }
    r
  }

  /** `sortedDataSources`: the user's priority list (or the default one) restricted to the
      enabled services, in priority order. */
  function SortedDataSources(prefs: Preferences, defaultPriority: seq<SourceKey>, enabled: seq<SourceKey>): (r: seq<SourceKey>)
    ensures forall k :: k in r <==> k in prefs.dataSourcesPriority.GetOr(defaultPriority) && k in enabled
    ensures |r| <= |prefs.dataSourcesPriority.GetOr(defaultPriority)|
  {
    Filter(prefs.dataSourcesPriority.GetOr(defaultPriority), k => k in enabled)
  }

  /** The priority order survives: the sorted list of a concatenated priority list is the
      sorted list of the first part followed by that of the second. */
  lemma SortedKeepsPriorityOrder(a: seq<SourceKey>, b: seq<SourceKey>, enabled: seq<SourceKey>)
    ensures SortedDataSources(Preferences(None, None, None, None, Some(a + b)), [], enabled)
         == SortedDataSources(Preferences(None, None, None, None, Some(a)), [], enabled)
          + SortedDataSources(Preferences(None, None, None, None, Some(b)), [], enabled)
  {
    FilterConcat(a, b, k => k in enabled);
  }

  /** A priority list without repeats yields a registry without repeats. */
  lemma SortedNoDup(prefs: Preferences, defaultPriority: seq<SourceKey>, enabled: seq<SourceKey>)
    requires NoDup(prefs.dataSourcesPriority.GetOr(defaultPriority))
    ensures NoDup(SortedDataSources(prefs, defaultPriority, enabled))
  {
    FilterNoDup(prefs.dataSourcesPriority.GetOr(defaultPriority), k => k in enabled);
  }

  /** `dataSourceRefs`: one handle per sorted key, in the same order. */
  function Registry(sorted: seq<SourceKey>, canSearch: SourceKey -> bool): (r: seq<DataSource>)
    ensures |r| == |sorted|
    ensures forall i | 0 <= i < |r| :: r[i].key == sorted[i] && r[i].canSearch == canSearch(sorted[i])
  {
    seq(|sorted|, i requires 0 <= i < |sorted| => DataSource(sorted[i], canSearch(sorted[i])))
  }

  function Keys(sources: seq<DataSource>): (r: seq<SourceKey>)
    ensures |r| == |sources|
    ensures forall i | 0 <= i < |r| :: r[i] == sources[i].key
  {
    seq(|sources|, i requires 0 <= i < |sources| => sources[i].key)
  }

  /** `findIndex` of the handle for `key`: the first position holding it, or -1. */
  function IndexOfKey(sources: seq<DataSource>, key: SourceKey): (r: int)
    ensures -1 <= r < |sources|
    ensures r == -1 <==> key !in Keys(sources)
    ensures r >= 0 ==> sources[r].key == key && forall j | 0 <= j < r :: sources[j].key != key
    decreases |sources|
  {
    if |sources| == 0 then -1
    else if sources[0].key == key then 0
    else
      var k := IndexOfKey(sources[1..], key);
      assert Keys(sources[1..]) == Keys(sources)[1..];
      if k == -1 then -1 else k + 1
  }

  /** `dataSourceRefs.splice(index, 1)` for a non-negative index: removes the entry at `index`
      when there is one, and nothing when `index` is past the end. */
  function RemoveAt(sources: seq<DataSource>, index: nat): (r: seq<DataSource>)
    ensures index < |sources| ==> |r| == |sources| - 1
    ensures index < |sources| ==> forall i | 0 <= i < index :: r[i] == sources[i]
    ensures index < |sources| ==> forall i | index <= i < |r| :: r[i] == sources[i + 1]
    ensures index >= |sources| ==> r == sources
  {
    if index < |sources| then sources[..index] + sources[index + 1..] else sources
  }

  /** Removing the only handle for a service removes that service from the registry. */
  lemma RemovedKeyIsGone(sources: seq<DataSource>, key: SourceKey)
    requires NoDup(Keys(sources))
    requires key in Keys(sources)
    ensures key !in Keys(RemoveAt(sources, IndexOfKey(sources, key)))
    ensures |RemoveAt(sources, IndexOfKey(sources, key))| == |sources| - 1
  {
    var i := IndexOfKey(sources, key);
    var r := RemoveAt(sources, i);
    forall j | 0 <= j < |r| ensures r[j].key != key {
      if j < i {
        assert r[j] == sources[j];
      } else {
        assert r[j] == sources[j + 1];
        assert Keys(sources)[j + 1] != Keys(sources)[i];
      }
    }
  }

  /** What `invalidateDataSource` leaves of the registry: the named handle removed, or the
      current one when none is named, the rest kept in order; a missing handle, or a current
      index off the registry, changes nothing. */
  function Invalidate(sources: seq<DataSource>, currentIndex: int, target: Option<SourceKey>): (r: seq<DataSource>)
    ensures target.Some? && target.value !in Keys(sources) ==> r == sources
    ensures target.Some? && target.value in Keys(sources) ==> r == RemoveAt(sources, IndexOfKey(sources, target.value))
    ensures target.Some? && target.value in Keys(sources) && NoDup(Keys(sources)) ==>
      target.value !in Keys(r) && |r| == |sources| - 1
    ensures target.None? && 0 <= currentIndex < |sources| ==>
      && |r| == |sources| - 1
      && (forall i | 0 <= i < currentIndex :: r[i] == sources[i])
      && (forall i | currentIndex <= i < |r| :: r[i] == sources[i + 1])
    ensures target.None? && !(0 <= currentIndex < |sources|) ==> r == sources
  {
    match target
    case Some(key) =>
      var index := IndexOfKey(sources, key);
      if index < 0 then sources
      else
        assert NoDup(Keys(sources)) ==>
          key !in Keys(RemoveAt(sources, index)) && |RemoveAt(sources, index)| == |sources| - 1 by {
          if NoDup(Keys(sources)) {
            RemovedKeyIsGone(sources, key);
          }
        }
        RemoveAt(sources, index)
    case None =>
      if currentIndex < 0 then sources else RemoveAt(sources, currentIndex)
  }
}

=== FILE: librefm_importer.dfy ===
/** The bookkeeping of the Libre.fm / Last.fm listen importer
    (frontend/js/src/lastfm/LibreFMImporter.tsx): which fetched scrobbles are submitted, how
    long to wait for the ListenBrainz rate limit, the progress bar, the page countdown, and
    the figures of the final message. Fetching and submitting are parameters. */
module LibreFmImporter {
  import opened Common

  /** A listen as produced from a scrobble; `listenedAt` is -1 for a track still playing. */
  datatype Listen = Listen(listenedAt: int, trackName: string, artistName: string)

  /** Whether a converted scrobble is kept for submission. */
  predicate Submittable(l: Listen) {
    l.listenedAt > 0
  }

  /** The converted collection, element by element. */
  function Apply<T>(applicable: T -> Listen, collection: seq<T>): (r: seq<Listen>)
    ensures |r| == |collection|
    ensures forall i | 0 <= i < |r| :: r[i] == applicable(collection[i])
  {
    seq(|collection|, i requires 0 <= i < |collection| => applicable(collection[i]))
  }

  /** The reference definition of what `map` keeps: the converted results with a positive
      timestamp, in input order. */
  function Kept<T>(applicable: T -> Listen, collection: seq<T>): (r: seq<Listen>)
    ensures |r| <= |collection|
  {
    Filter(Apply(applicable, collection), Submittable)
  }

  /** `LibreFmImporter.map(applicable, collection)`. */
  method Map<T>(applicable: T -> Listen, collection: seq<T>) returns (r: seq<Listen>)
    ensures r == Kept(applicable, collection)
    ensures |r| <= |collection|
    ensures forall i | 0 <= i < |r| :: r[i].listenedAt > 0
    ensures forall x | x in collection && applicable(x).listenedAt > 0 :: applicable(x) in r
  {
    r := [];
    var i := 0;
    while i < |collection|
      invariant 0 <= i <= |collection|
      invariant r == Kept(applicable, collection[..i])
    {
      var result := applicable(collection[i]);
      assert Apply(applicable, collection[..i + 1]) == Apply(applicable, collection[..i]) + [result];
      FilterConcat(Apply(applicable, collection[..i]), [result], Submittable);
      if result.listenedAt > 0 {
        r := r + [result];
      }
      i := i + 1;
    }
    assert collection[..i] == collection;
    forall x | x in collection && applicable(x).listenedAt > 0 ensures applicable(x) in r {
      var k :| 0 <= k < |collection| && collection[k] == x;
      assert Apply(applicable, collection)[k] == applicable(x);
    }
  }

  // ---------------------------------------------------------------------------------------
  // Rate limit

  /** `ceil(a / b)` for a positive divisor. */
  function CeilDiv(a: int, b: int): (r: int)
    requires b > 0
    ensures (r - 1) * b < a <= r * b
  {
    var q := (-a) / b;
    var m := (-a) % b;
    assert -a == b * q + m && 0 <= m < b;
    assert -q * b == a + m;
    -q
  }

  /** The rate-limit figures of the last submission's response: requests remaining, seconds
      until the window resets (-1 before any response), and when that response arrived (in
      milliseconds). */
  datatype RateLimit = RateLimit(remain: int, reset: int, originMs: int)

  const NoRateLimit := RateLimit(-1, -1, -1)

  /** `getRateLimitDelay()` at clock time `nowMs`, in milliseconds: nothing when there is no
      window or it has run out; otherwise the rest of the window spread evenly over the
      remaining requests, or the whole window when none remain. */
  function RateLimitDelay(rl: RateLimit, nowMs: int): (delay: int)
    ensures delay >= 0
    ensures rl.reset < 0 || nowMs > rl.originMs + rl.reset * 1000 ==> delay == 0
    ensures rl.reset >= 0 && nowMs <= rl.originMs + rl.reset * 1000 && rl.remain > 0 ==>
      (delay - 1) * rl.remain < rl.reset * 1000 <= delay * rl.remain
    ensures rl.reset >= 0 && nowMs <= rl.originMs + rl.reset * 1000 && rl.remain <= 0 ==>
      delay == rl.reset * 1000
  {
    if rl.reset < 0 || nowMs > rl.originMs + rl.reset * 1000 then 0
    else if rl.remain > 0 then
      var d := CeilDiv(rl.reset * 1000, rl.remain);
      assert d * rl.remain >= 0;
      Max(0, d)
    else Max(0, rl.reset * 1000)
  }

  function Max(a: int, b: int): int {
    if a >= b then a else b
  }

  /** More requests left in the window never means a longer wait. */
  lemma DelayShrinksWithRemaining(rl: RateLimit, nowMs: int, more: int)
    requires rl.remain > 0 && more >= rl.remain
    ensures RateLimitDelay(rl.(remain := more), nowMs) <= RateLimitDelay(rl, nowMs)
  {
    if rl.reset >= 0 && nowMs <= rl.originMs + rl.reset * 1000 {
      var d := RateLimitDelay(rl, nowMs);
      var e := RateLimitDelay(rl.(remain := more), nowMs);
      var a := rl.reset * 1000;
      if e > d {
        MulMono(rl.remain, more, d);
        MulMono(d, e - 1, more);
      }
    }
  }

  lemma DelayExamples()
    ensures RateLimitDelay(NoRateLimit, 0) == 0
    ensures RateLimitDelay(RateLimit(3, 10, 1000), 5000) == 3334
    ensures RateLimitDelay(RateLimit(0, 10, 1000), 5000) == 10000
    ensures RateLimitDelay(RateLimit(3, 10, 1000), 11001) == 0
  {
  }

  // ---------------------------------------------------------------------------------------
  // Progress

  /** A progress figure: a whole percentage, or what `Math.ceil` makes of a division by zero. */
  datatype Percentage = Percent(p: int) | NotANumber | MinusInfinity

  /** `progressBarPercentage()`, in exact arithmetic: the completed share of the pages rounded
      up, or 50 once more pages were completed than announced. */
  function ProgressBarPercentage(numCompleted: int, totalPages: int): (r: Percentage)
    ensures numCompleted > totalPages ==> r == Percent(50)
    ensures totalPages > 0 && 0 <= numCompleted <= totalPages ==>
      && r.Percent? && 0 <= r.p <= 100
      && (r.p - 1) * totalPages < 100 * numCompleted <= r.p * totalPages
    ensures totalPages > 0 && 0 < numCompleted <= totalPages ==> r.Percent? && r.p >= 1
    ensures totalPages > 0 && numCompleted == totalPages ==> r == Percent(100)
    ensures totalPages == 0 && numCompleted == 0 ==> r == NotANumber
  {
    if totalPages >= numCompleted then
      if totalPages > 0 then
        var p := CeilDiv(100 * numCompleted, totalPages);
        if numCompleted >= 0 then
          PercentBounds(numCompleted, totalPages, p);
          Percent(p)
        else Percent(p)
      else if totalPages < 0 then Percent(CeilDiv(-100 * numCompleted, -totalPages))
      else if numCompleted == 0 then NotANumber
      else MinusInfinity
    else Percent(50)
  }

  lemma PercentBounds(c: int, t: int, p: int)
    requires t > 0 && 0 <= c <= t
    requires (p - 1) * t < 100 * c <= p * t
    ensures 0 <= p <= 100
    ensures c > 0 ==> p >= 1
    ensures c == t ==> p == 100
  {
    MulMono(100 * c, 100 * t, 1);
    if p < 0 {
      MulMono(p, -1, t);
    }
    if p > 100 {
      MulMono(100, p - 1, t);
    }
    if c > 0 && p < 1 {
      MulMono(p, 0, t);
    }
    if c == t && p < 100 {
      MulMono(p, 99, t);
    }
  }

  /** Multiplying by a non-negative factor keeps the order. */
  lemma MulMono(a: int, b: int, k: int)
    requires a <= b && k >= 0
    ensures a * k <= b * k
  {
    var d := b - a;
    assert d * k >= 0;
    assert b * k == a * k + d * k;
  }

  // ---------------------------------------------------------------------------------------
  // The import loop

  /** A raw scrobble of a fetched page: its `date.uts` when it has one, and the listen it
      converts to. */
  datatype Track = Track(dateUts: Option<int>, listen: Listen)

  /** What `getPage` yields for one page once its retries are spent: the page's tracks, nothing
      (a 4xx answer), or an error that ends the import. */
  datatype PageOutcome = Tracks(tracks: seq<Track>) | ClientError | Failure

  function ToListen(t: Track): Listen {
    t.listen
  }

  /** The importer's fields that the import touches. */
  datatype Importer = Importer(
    page: int,
    totalPages: int,
    playCount: int,
    countReceived: int,
    latestImportTime: int,
    maxTimestampForImport: int,
    incrementalImport: bool,
    numCompleted: int,
    submitted: seq<seq<Listen>>,
    lastImported: Option<int>,
    progress: seq<Percentage>)

  /** The field values right after construction. */
  const Fresh := Importer(1, 0, -1, 0, 0, 0, false, 0, [], None, [])

  /** An accepted page: the listens it submits. A page without tracks throws while its first
      track is read, and so does an accepted page whose payload came out empty. */
  predicate PageAccepted(o: PageOutcome) {
    o.Tracks? && |o.tracks| > 0 && |Kept(ToListen, o.tracks)| > 0
  }

  predicate PageFine(o: PageOutcome) {
    o.ClientError? || PageAccepted(o)
  }

  /** Pages `page` down to 1 all pass without ending the import. */
  predicate AllFine(fetch: int -> PageOutcome, page: int)
    decreases page
  {
    page <= 0 || (PageFine(fetch(page)) && AllFine(fetch, page - 1))
  }

  /** The same, page by page. */
  lemma {:induction false} AllFineEveryPage(fetch: int -> PageOutcome, page: int)
    ensures AllFine(fetch, page) <==> forall p | 1 <= p <= page :: PageFine(fetch(p))
    decreases page
  {
    if page > 0 {
      AllFineEveryPage(fetch, page - 1);
    }
  }

  /** The reference count of listens received from pages `page` down to 1. */
  function Received(fetch: int -> PageOutcome, page: int): nat
    decreases page
  {
    if page <= 0 then 0
    else (if fetch(page).Tracks? then |Kept(ToListen, fetch(page).tracks)| else 0) + Received(fetch, page - 1)
  }

  /** How the loop ends: all pages done, or an error thrown at the state reached. */
  datatype LoopOutcome = Done(state: Importer) | Thrown(state: Importer)

  /** One page of `getPage`'s success path: the newest timestamp so far (the clock's when the
      first track carries no date) and the received count. */
  function ReceivePage(s: Importer, tracks: seq<Track>, payload: seq<Listen>, nowSec: int): (r: Importer)
    requires |tracks| > 0
    ensures r.countReceived == s.countReceived + |payload|
    // With a dated first track the newest timestamp is the larger of the two: at least both,
    // and one of them.
    ensures tracks[0].dateUts.Some? ==>
      && r.maxTimestampForImport >= s.maxTimestampForImport && r.maxTimestampForImport >= tracks[0].dateUts.value
      && (r.maxTimestampForImport == s.maxTimestampForImport || r.maxTimestampForImport == tracks[0].dateUts.value)
    ensures tracks[0].dateUts.None? ==> r.maxTimestampForImport == nowSec
    ensures r == s.(countReceived := r.countReceived, maxTimestampForImport := r.maxTimestampForImport)
  {
    var maxTs := match tracks[0].dateUts
      case Some(uts) => Max(uts, s.maxTimestampForImport)
      case None => nowSec;
    s.(maxTimestampForImport := maxTs, countReceived := s.countReceived + |payload|)
  }

  /** A percentage the progress bar can show as such. */
  predicate InRange(x: Percentage) {
    x.Percent? && 1 <= x.p <= 100
  }

  predicate AllInRange(xs: seq<Percentage>) {
    forall k | 0 <= k < |xs| :: InRange(xs[k])
  }

  lemma AppendInRange(xs: seq<Percentage>, x: Percentage)
    requires AllInRange(xs) && InRange(x)
    ensures AllInRange(xs + [x])
  {
    assert forall k | 0 <= k < |xs| :: (xs + [x])[k] == xs[k];
  }

  /** One pass of the loop body for the page at `s.page`. `ok` is false when the page ends the
      import with an error, in which case `next` is the state at the throw. */
  method ImportPage(s: Importer, outcome: PageOutcome, nowSec: int) returns (next: Importer, ok: bool)
    ensures ok <==> PageFine(outcome)
    ensures next.totalPages == s.totalPages && next.playCount == s.playCount
    ensures next.latestImportTime == s.latestImportTime && next.incrementalImport == s.incrementalImport
    ensures !ok ==> next.page == s.page && next.numCompleted == s.numCompleted && next.progress == s.progress
    ensures ok ==>
      && next.page == s.page - 1 && next.numCompleted == s.numCompleted + 1
      && next.countReceived == s.countReceived + (if outcome.Tracks? then |Kept(ToListen, outcome.tracks)| else 0)
      && |next.progress| == |s.progress| + 1
      && next.progress == s.progress + [next.progress[|s.progress|]]
      && next.progress[|s.progress|] == ProgressBarPercentage(next.numCompleted, s.totalPages)
    ensures ok && 0 <= s.numCompleted && s.numCompleted + s.page == s.totalPages && s.page > 0 ==>
      InRange(next.progress[|s.progress|])
  {
    next := s;
    if outcome.Failure? || (outcome.Tracks? && |outcome.tracks| == 0) {
      return next, false;
    }
    if outcome.Tracks? {
      var payload := Map(ToListen, outcome.tracks);
      next := ReceivePage(next, outcome.tracks, payload, nowSec);
      next := next.(submitted := next.submitted + [payload]);
      if |payload| == 0 {
        return next, false;
      }
      next := next.(lastImported := Some(payload[0].listenedAt));
    }
    next := next.(page := next.page - 1, numCompleted := next.numCompleted + 1);
    next := next.(progress := next.progress + [ProgressBarPercentage(next.numCompleted, next.totalPages)]);
    ok := true;
  }

  /** The run-wide fields a pass of the loop never touches. */
  predicate SameRun(a: Importer, b: Importer) {
    && a.totalPages == b.totalPages && a.playCount == b.playCount
    && a.latestImportTime == b.latestImportTime && a.incrementalImport == b.incrementalImport
  }

  /** A full import begun by `startImport`: nothing completed, every page still to fetch. */
  predicate FreshRun(s: Importer) {
    s.numCompleted == 0 && s.page == s.totalPages && s.progress == []
  }

  /** What the loop keeps between passes, started from `s` and now at `st`: every page from
      `s.page` down past `st.page` was done exactly once and counted once. */
  predicate Tracked(s: Importer, st: Importer, fetch: int -> PageOutcome) {
    && st.page <= s.page
    && (st.page >= 0 || st.page == s.page)
    && (AllFine(fetch, s.page) <==> AllFine(fetch, st.page))
    && st.numCompleted == s.numCompleted + (s.page - st.page)
    && st.countReceived == s.countReceived + Received(fetch, s.page) - Received(fetch, st.page)
    && |st.progress| == |s.progress| + (s.page - st.page)
    && SameRun(s, st)
    && (FreshRun(s) ==> st.numCompleted + st.page == st.totalPages && AllInRange(st.progress))
  }

  /** A passed page keeps the loop's bookkeeping. */
  lemma TrackedStep(s: Importer, st: Importer, next: Importer, fetch: int -> PageOutcome)
    requires Tracked(s, st, fetch) && st.page > 0
    requires PageFine(fetch(st.page))
    requires SameRun(st, next)
    requires next.page == st.page - 1 && next.numCompleted == st.numCompleted + 1
    requires next.countReceived == st.countReceived
      + (if fetch(st.page).Tracks? then |Kept(ToListen, fetch(st.page).tracks)| else 0)
    requires |next.progress| == |st.progress| + 1
    requires next.progress == st.progress + [next.progress[|st.progress|]]
    requires 0 <= st.numCompleted && st.numCompleted + st.page == st.totalPages ==>
      InRange(next.progress[|st.progress|])
    ensures Tracked(s, next, fetch)
  {
    if FreshRun(s) {
      AppendInRange(st.progress, next.progress[|st.progress|]);
    }
  }

  /** `importLoop()`: pages are fetched from `page` down to 1; each accepted payload is
      submitted, and every page, accepted or not, counts as completed and updates the progress
      bar. A failed page, or an accepted payload with no listen in it, ends the loop with an
      error. */
  method ImportLoop(s: Importer, fetch: int -> PageOutcome, nowSec: int) returns (r: LoopOutcome)
    ensures r.Done? <==> AllFine(fetch, s.page)
    ensures r.Done? ==>
      && r.state.page == (if s.page > 0 then 0 else s.page)
      && r.state.numCompleted == s.numCompleted + (if s.page > 0 then s.page else 0)
      && r.state.countReceived == s.countReceived + Received(fetch, s.page)
      && |r.state.progress| == |s.progress| + (if s.page > 0 then s.page else 0)
    ensures r.state.totalPages == s.totalPages && r.state.playCount == s.playCount
    ensures r.state.latestImportTime == s.latestImportTime && r.state.incrementalImport == s.incrementalImport
    ensures r.state.page <= s.page
    ensures FreshRun(s) ==> AllInRange(r.state.progress)
  {
    var st := s;
    while st.page > 0
      invariant Tracked(s, st, fetch)
      decreases st.page
    {
      var next, ok := ImportPage(st, fetch(st.page), nowSec);
      if !ok {
        return Thrown(next);
      }
      TrackedStep(s, st, next, fetch);
      st := next;
    }
    r := Done(st);
  }

  // ---------------------------------------------------------------------------------------
  // Starting and finishing an import

  /** The fields `startImport` sets before the loop from what the APIs reported. The received
      count and the newest timestamp carry over from any earlier import of the same importer. */
  function StartImport(s: Importer, latestImport: int, playCount: int, totalPages: int): (r: Importer)
    ensures r.incrementalImport <==> latestImport > 0
    ensures r.latestImportTime == latestImport && r.playCount == playCount
    ensures r.page == totalPages && r.totalPages == totalPages && r.numCompleted == 0
    ensures r.countReceived == s.countReceived && r.maxTimestampForImport == s.maxTimestampForImport
  {
    s.(latestImportTime := latestImport, incrementalImport := latestImport > 0, playCount := playCount,
       totalPages := totalPages, page := totalPages, numCompleted := 0)
  }

  /** The figures of a successful import's final message. */
  datatype Summary = Summary(maxTimestamp: int, countReceived: int, showMismatch: bool)

  /** The end of a successful `startImport`: the timestamp stored as the latest import, and
      whether the count-mismatch warning is shown. */
  function FinishImport(s: Importer): (r: Summary)
    ensures r.maxTimestamp >= s.latestImportTime && r.maxTimestamp >= s.maxTimestampForImport
    ensures r.maxTimestamp == s.latestImportTime || r.maxTimestamp == s.maxTimestampForImport
    ensures r.countReceived == s.countReceived
    ensures r.showMismatch <==> !s.incrementalImport && s.playCount != -1 && s.countReceived != s.playCount
  {
    Summary(Max(s.maxTimestampForImport, s.latestImportTime), s.countReceived,
            !s.incrementalImport && s.playCount != -1 && s.countReceived != s.playCount)
  }

  datatype ImportResult = Finished(summary: Summary) | ImportFailed

  /** `startImport()` once the preliminary API answers are in: the loop runs from the last
      page down, and a clean run ends in the final summary. */
  method RunImport(s: Importer, latestImport: int, playCount: int, totalPages: int,
                   fetch: int -> PageOutcome, nowSec: int) returns (result: ImportResult)
    ensures result.Finished? <==> AllFine(fetch, totalPages)
    ensures result.Finished? ==>
      && result.summary.maxTimestamp >= latestImport
      && result.summary.countReceived == s.countReceived + Received(fetch, totalPages)
      && (result.summary.showMismatch <==>
            latestImport <= 0 && playCount != -1 && s.countReceived + Received(fetch, totalPages) != playCount)
  {
    var started := StartImport(s, latestImport, playCount, totalPages);
    var outcome := ImportLoop(started, fetch, nowSec);
    if outcome.Thrown? {
      return ImportFailed;
    }
    result := Finished(FinishImport(outcome.state));
  }

  /** A first, complete import of a user whose reported play count matches what arrived
      shows no warning; an incremental one never does. */
  lemma MismatchOnlyOnFullImports(s: Importer)
    ensures s.incrementalImport ==> !FinishImport(s).showMismatch
    ensures s.playCount == -1 ==> !FinishImport(s).showMismatch
    ensures s.countReceived == s.playCount ==> !FinishImport(s).showMismatch
  {
  }
}

=== FILE: personal_recommendations.dfy ===
/** The input logic of the personal-recommendation dialog: the recipient list, the follower
    search, the message ("blurb") box with its whitespace normalisation and 280-character
    cap, and what is sent (frontend/js/src/personal-recommendations/PersonalRecommendationsModal.tsx). */
module PersonalRecommendations {
  import opened Common
  import opened Text

  /** `maxBlurbContentLength`. */
  const MaxBlurbContentLength := 280

  // ---------------------------------------------------------------------------------------
  // Whitespace normalisation of the blurb

  /** JavaScript's `\s`: the ECMAScript WhiteSpace and LineTerminator characters. */
  predicate IsWhitespace(c: char) {
    || c == '\t' || c == '\n' || c == '\U{000B}' || c == '\U{000C}' || c == '\r' || c == ' '
    || c == '\U{00A0}' || c == '\U{1680}' || '\U{2000}' <= c <= '\U{200A}'
    || c == '\U{2028}' || c == '\U{2029}' || c == '\U{202F}' || c == '\U{205F}' || c == '\U{3000}'
    || c == '\U{FEFF}'
  }

  /** No two whitespace characters stand next to each other. */
  predicate NoAdjacentWhitespace(s: string) {
    forall i | 0 <= i < |s| - 1 :: !(IsWhitespace(s[i]) && IsWhitespace(s[i + 1]))
  }

  /** The length of the whitespace run `s` starts with. */
  function LeadingWhitespace(s: string): (n: nat)
    ensures n <= |s|
    ensures forall i | 0 <= i < n :: IsWhitespace(s[i])
    ensures n < |s| ==> !IsWhitespace(s[n])
    decreases |s|
  {
    if |s| == 0 || !IsWhitespace(s[0]) then 0 else 1 + LeadingWhitespace(s[1..])
  }

  /** `replace(/\s\s+/g, " ")`: scanning left to right, every maximal run of two or more
      whitespace characters becomes one space; a lone whitespace character stays as it is. */
  function Normalize(s: string): (r: string)
    ensures |r| <= |s|
    ensures |s| > 0 ==> |r| > 0 && (IsWhitespace(r[0]) <==> IsWhitespace(s[0]))
    ensures NoAdjacentWhitespace(r)
    decreases |s|
  {
    if |s| == 0 then ""
    else
      var n := LeadingWhitespace(s);
      if n >= 2 then
        var rest := Normalize(s[n..]);
        assert n < |s| ==> !IsWhitespace(s[n..][0]);
        var r := " " + rest;
        assert forall i | 1 <= i < |r| :: r[i] == rest[i - 1];
        r
      else
        var rest := Normalize(s[1..]);
        assert IsWhitespace(s[0]) && |s| > 1 ==> !IsWhitespace(s[1..][0]);
        var r := [s[0]] + rest;
        assert forall i | 1 <= i < |r| :: r[i] == rest[i - 1];
        r
  }

  /** A whitespace run followed by text that does not start with whitespace: the leading run is
      exactly the run. */
  lemma {:induction false} LeadingWhitespaceOfRun(w: string, q: string)
    requires forall i | 0 <= i < |w| :: IsWhitespace(w[i])
    requires q == "" || !IsWhitespace(q[0])
    ensures LeadingWhitespace(w + q) == |w|
    decreases |w|
  {
    if |w| == 0 {
      assert w + q == q;
    } else {
      assert (w + q)[1..] == w[1..] + q;
      LeadingWhitespaceOfRun(w[1..], q);
    }
  }

  /** The replacement itself: a maximal run of two or more whitespace characters becomes one
      space, and normalisation goes on after it. */
  lemma NormalizeCollapsesRun(w: string, q: string)
    requires |w| >= 2 && forall i | 0 <= i < |w| :: IsWhitespace(w[i])
    requires q == "" || !IsWhitespace(q[0])
    ensures Normalize(w + q) == " " + Normalize(q)
  {
    LeadingWhitespaceOfRun(w, q);
    assert (w + q)[|w|..] == q;
  }

  /** A lone whitespace character, or any other character, is kept as it is. */
  lemma NormalizeKeepsSingle(c: char, q: string)
    requires q == "" || !IsWhitespace(q[0]) || !IsWhitespace(c)
    ensures Normalize([c] + q) == [c] + Normalize(q)
  {
    if IsWhitespace(c) {
      LeadingWhitespaceOfRun([c], q);
    }
    assert ([c] + q)[1..] == q;
  }

  /** The visible characters of a string: all but its whitespace. */
  function Visible(s: string): string {
    Filter(s, c => !IsWhitespace(c))
  }

  /** A whitespace-only string has no visible characters. */
  lemma {:induction false} WhitespaceIsInvisible(s: string)
    requires forall i | 0 <= i < |s| :: IsWhitespace(s[i])
    ensures Visible(s) == ""
    decreases |s|
  {
    if |s| > 0 {
      WhitespaceIsInvisible(s[1..]);
    }
  }

  /** Normalisation only touches whitespace: the non-whitespace characters survive, in order. */
  lemma {:induction false} NormalizeKeepsVisible(s: string)
    ensures Visible(Normalize(s)) == Visible(s)
    decreases |s|
  {
    var p := (c: char) => !IsWhitespace(c);
    if |s| > 0 {
      var n := LeadingWhitespace(s);
      if n >= 2 {
        NormalizeKeepsVisible(s[n..]);
        assert s == s[..n] + s[n..];
        FilterConcat(s[..n], s[n..], p);
        WhitespaceIsInvisible(s[..n]);
        FilterConcat(" ", Normalize(s[n..]), p);
      } else {
        NormalizeKeepsVisible(s[1..]);
        assert s == [s[0]] + s[1..];
        FilterConcat([s[0]], s[1..], p);
        FilterConcat([s[0]], Normalize(s[1..]), p);
      }
    }
  }

  /** A string without adjacent whitespace is left as it is. */
  lemma {:induction false} NormalizeFixed(s: string)
    requires NoAdjacentWhitespace(s)
    ensures Normalize(s) == s
    decreases |s|
  {
    if |s| > 0 {
      assert LeadingWhitespace(s) <= 1 by {
        if |s| > 1 && IsWhitespace(s[0]) {
          assert !IsWhitespace(s[1]);
          assert LeadingWhitespace(s[1..]) == 0 by {
            assert !IsWhitespace(s[1..][0]);
          }
        }
      }
      assert NoAdjacentWhitespace(s[1..]) by {
        forall i | 0 <= i < |s[1..]| - 1 ensures !(IsWhitespace(s[1..][i]) && IsWhitespace(s[1..][i + 1])) {
          assert s[1..][i] == s[i + 1] && s[1..][i + 1] == s[i + 2];
        }
      }
      NormalizeFixed(s[1..]);
      assert s == [s[0]] + s[1..];
    }
  }

  /** Normalising twice is normalising once. */
  lemma NormalizeIdempotent(s: string)
    ensures Normalize(Normalize(s)) == Normalize(s)
  {
    NormalizeFixed(Normalize(s));
  }

  /** The strings normalisation leaves alone are exactly those without adjacent whitespace. */
  lemma NormalizeFixedIff(s: string)
    ensures Normalize(s) == s <==> NoAdjacentWhitespace(s)
  {
    if NoAdjacentWhitespace(s) {
      NormalizeFixed(s);
    }
  }

  // ---------------------------------------------------------------------------------------
  // The recipient list

  /** Where `x` first occurs in `s`. */
  function FirstIndex<T(==)>(s: seq<T>, x: T): (i: nat)
    requires x in s
    ensures i < |s| && s[i] == x && x !in s[..i]
    decreases |s|
  {
    if s[0] == x then 0
    else
      var k := FirstIndex(s[1..], x);
      assert s[..k + 1] == [s[0]] + s[1..][..k];
      k + 1
  }

  /** Appending an element does not move the first occurrence of one already there. */
  lemma FirstIndexAppend<T>(s: seq<T>, y: T, x: T)
    requires x in s
    ensures FirstIndex(s + [y], x) == FirstIndex(s, x)
  {
    var k := FirstIndex(s, x);
    assert (s + [y])[..k] == s[..k];
    assert (s + [y])[..k + 1] == s[..k + 1];
    assert x in (s + [y])[..k + 1];
  }

  /** lodash `uniq`: the first occurrence of every element, in order. */
  function Uniq<T(==)>(s: seq<T>): (r: seq<T>)
    ensures forall x | x in r :: x in s
    ensures forall x | x in s :: x in r
    ensures NoDup(r)
    ensures NoDup(s) ==> r == s
    decreases |s|
  {
    if |s| == 0 then []
    else
      var init := s[..|s| - 1];
      var last := s[|s| - 1];
      var u := Uniq(init);
      assert s == init + [last];
      assert NoDup(s) ==> NoDup(init) && last !in init by {
        if NoDup(s) {
          forall i | 0 <= i < |init| ensures init[i] != last {
            assert init[i] == s[i];
          }
        }
      }
      if last in u then u
      else
        assert forall i | 0 <= i < |u| :: (u + [last])[i] == u[i];
        u + [last]
  }

  /** `Uniq` keeps the elements in the order of their first occurrences. */
  lemma {:induction false} UniqKeepsFirstOccurrenceOrder<T>(s: seq<T>)
    ensures forall i, j | 0 <= i < j < |Uniq(s)| :: FirstIndex(s, Uniq(s)[i]) < FirstIndex(s, Uniq(s)[j])
    decreases |s|
  {
    if |s| > 0 {
      var init := s[..|s| - 1];
      var last := s[|s| - 1];
      UniqKeepsFirstOccurrenceOrder(init);
      assert s == init + [last];
      var u := Uniq(init);
      assert forall i | 0 <= i < |u| :: u[i] in init;
      UniqOrderStep(init, last, u);
    }
  }

  /** The order part of one `Uniq` step: appending a new last element after the first
      occurrences of `init`, in order, gives the first occurrences of `init + [last]`, in order. */
  lemma UniqOrderStep<T>(init: seq<T>, last: T, u: seq<T>)
    requires forall i | 0 <= i < |u| :: u[i] in init
    requires last in init ==> last in u
    requires forall i, j | 0 <= i < j < |u| :: FirstIndex(init, u[i]) < FirstIndex(init, u[j])
    ensures var r := if last in u then u else u + [last];
      forall i, j | 0 <= i < j < |r| :: FirstIndex(init + [last], r[i]) < FirstIndex(init + [last], r[j])
  {
    var s := init + [last];
    forall i | 0 <= i < |u| ensures FirstIndex(s, u[i]) == FirstIndex(init, u[i]) {
      FirstIndexAppend(init, last, u[i]);
    }
    if last !in u {
      var r := u + [last];
      assert forall i | 0 <= i < |u| :: r[i] == u[i];
      assert FirstIndex(s, last) == |s| - 1 by {
        assert s[..|s| - 1] == init;
      }
    }
  }

  /** The dialog's state: chosen recipients, the followers loaded for the search, the current
      suggestions and the message. */
  datatype Dialog = Dialog(users: seq<string>, followers: seq<string>, suggestions: seq<string>, blurb: string)

  /** What the dialog keeps true: no recipient twice, and a message within the cap and free
      of runs of whitespace. */
  predicate Valid(d: Dialog) {
    NoDup(d.users) && |d.blurb| <= MaxBlurbContentLength && NoAdjacentWhitespace(d.blurb)
  }

  /** The dialog as it opens. */
  function Opened(): (d: Dialog)
    ensures Valid(d)
    ensures d.users == [] && d.suggestions == [] && d.blurb == ""
  {
    Dialog([], [], [], "")
  }

  /** `getFollowersOfUser` answered: the followers the search looks through. */
  function FollowersLoaded(d: Dialog, followers: seq<string>): (r: Dialog)
    ensures r.followers == followers
    ensures r == d.(followers := followers)
    ensures Valid(d) ==> Valid(r)
  {
    d.(followers := followers)
  }

  /** `addUser`: the recipient is appended unless already chosen, and the suggestions close. */
  function AddUser(d: Dialog, user: string): (r: Dialog)
    ensures user in r.users
    ensures forall x :: x in r.users <==> x in d.users || x == user
    ensures NoDup(r.users)
    ensures NoDup(d.users) ==> r.users == if user in d.users then d.users else d.users + [user]
    ensures r.suggestions == []
    ensures r.followers == d.followers && r.blurb == d.blurb
    ensures Valid(d) ==> Valid(r)
  {
    var users := d.users + [user];
    assert NoDup(d.users) && user !in d.users ==> NoDup(users) by {
      if NoDup(d.users) && user !in d.users {
        assert forall i | 0 <= i < |d.users| :: users[i] == d.users[i];
      }
    }
    d.(users := Uniq(users), suggestions := [])
  }

  /** Adding the same recipient twice is adding them once. */
  lemma AddUserIdempotent(d: Dialog, user: string)
    ensures AddUser(AddUser(d, user), user) == AddUser(d, user)
  {
    var once := AddUser(d, user);
    assert user in once.users;
  }

  /** The test `removeUser` filters with. */
  function Other(user: string): string -> bool {
    x => x != user
  }

  /** `removeUser`: every occurrence of the recipient goes, the others stay in order. */
  function RemoveUser(d: Dialog, user: string): (r: Dialog)
    ensures user !in r.users
    ensures forall x :: x in r.users <==> x in d.users && x != user
    ensures user !in d.users ==> r.users == d.users
    ensures r == d.(users := r.users)
    ensures Valid(d) ==> Valid(r)
  {
    var p := Other(user);
    var users := Filter(d.users, p);
    assert user !in d.users ==> users == d.users by {
      if user !in d.users {
        FilterKeepsAll(d.users, p);
      }
    }
    assert NoDup(d.users) ==> NoDup(users) by {
      if NoDup(d.users) {
        FilterNoDup(d.users, p);
      }
    }
    d.(users := users)
  }

  /** Filtering with a test every element passes changes nothing. */
  lemma {:induction false} FilterKeepsAll<T>(s: seq<T>, p: T -> bool)
    requires forall i | 0 <= i < |s| :: p(s[i])
    ensures Filter(s, p) == s
    decreases |s|
  {
    if |s| > 0 {
      FilterKeepsAll(s[1..], p);
    }
  }

  /** Filtering with two tests that agree everywhere gives the same result. */
  lemma {:induction false} FilterSameTest<T>(s: seq<T>, p: T -> bool, q: T -> bool)
    requires forall x :: p(x) == q(x)
    ensures Filter(s, p) == Filter(s, q)
    decreases |s|
  {
    if |s| > 0 {
      FilterSameTest(s[1..], p, q);
    }
  }

  /** Removing a recipient removes them from where they stood and nowhere else. */
  lemma RemoveUserKeepsOrder(before: seq<string>, user: string, after: seq<string>, d: Dialog)
    requires d.users == before + [user] + after
    requires user !in before && user !in after
    ensures RemoveUser(d, user).users == before + after
  {
    var p := Other(user);
    assert d.users == (before + [user]) + after;
    FilterConcat(before + [user], after, p);
    FilterConcat(before, [user], p);
    assert Filter([user], p) == [];
    assert forall i | 0 <= i < |before| :: p(before[i]);
    FilterKeepsAll(before, p);
    assert forall i | 0 <= i < |after| :: p(after[i]);
    FilterKeepsAll(after, p);
    var head := before + [user];
    assert Filter(head, p) == before;
    assert Filter(d.users, p) == Filter(head, p) + Filter(after, p);
  }

  /** Adding a new recipient and then removing them restores the list. */
  lemma AddThenRemove(d: Dialog, user: string)
    requires NoDup(d.users) && user !in d.users
    ensures RemoveUser(AddUser(d, user), user).users == d.users
  {
    RemoveUserKeepsOrder(d.users, user, [], AddUser(d, user));
  }

  // ---------------------------------------------------------------------------------------
  // Searching the followers

  /** Whether a follower matches a query, ignoring case. */
  predicate Matches(name: string, query: string) {
    Contains(Lower(name), Lower(query))
  }

  /** The test `searchUsers` filters with. */
  function MatchesQuery(query: string): string -> bool {
    x => Matches(x, query)
  }

  /** `searchUsers`: an empty query closes the suggestions; any other query suggests the
      followers whose name contains it, ignoring case, in follower order. */
  function SearchUsers(d: Dialog, query: string): (r: Dialog)
    ensures query == "" ==> r.suggestions == []
    ensures query != "" ==> forall x :: x in r.suggestions <==> x in d.followers && Matches(x, query)
    ensures |r.suggestions| <= |d.followers|
    ensures r == d.(suggestions := r.suggestions)
    ensures Valid(d) ==> Valid(r)
  {
    if query == "" then d.(suggestions := [])
    else d.(suggestions := Filter(d.followers, MatchesQuery(query)))
  }

  /** Suggestions keep the followers' order: searching a list made of two parts suggests the
      first part's matches before the second part's. */
  lemma SearchKeepsFollowerOrder(d: Dialog, a: seq<string>, b: seq<string>, query: string)
    requires d.followers == a + b
    ensures SearchUsers(d, query).suggestions
         == SearchUsers(d.(followers := a), query).suggestions + SearchUsers(d.(followers := b), query).suggestions
  {
    if query != "" {
      FilterConcat(a, b, MatchesQuery(query));
    }
  }

  /** Queries that differ only in letter case suggest the same followers. */
  lemma SearchIgnoresCase(d: Dialog, q1: string, q2: string)
    requires Lower(q1) == Lower(q2)
    ensures SearchUsers(d, q1) == SearchUsers(d, q2)
  {
    if q1 != "" {
      FilterSameTest(d.followers, MatchesQuery(q1), MatchesQuery(q2));
    }
  }

  // ---------------------------------------------------------------------------------------
  // The message box

  /** `handleBlurbInputChange`: the typed text, normalised, replaces the message when it fits
      the cap; a text too long after normalisation is refused and the message stays. */
  function BlurbInputChange(d: Dialog, input: string): (r: Dialog)
    ensures r.blurb == Normalize(input) || r.blurb == d.blurb
    ensures |Normalize(input)| <= MaxBlurbContentLength ==> r.blurb == Normalize(input)
    ensures |Normalize(input)| > MaxBlurbContentLength ==> r.blurb == d.blurb
    ensures r == d.(blurb := r.blurb)
    ensures Valid(d) ==> Valid(r)
  {
    var normalized := Normalize(input);
    if |normalized| <= MaxBlurbContentLength then d.(blurb := normalized) else d
  }

  /** Something the user does in the dialog. */
  datatype Action =
    | LoadFollowers(followers: seq<string>)
    | Add(user: string)
    | Remove(user: string)
    | Search(query: string)
    | Type(input: string)

  function Step(d: Dialog, a: Action): (r: Dialog)
    ensures Valid(d) ==> Valid(r)
  {
    match a
    case LoadFollowers(f) => FollowersLoaded(d, f)
    case Add(u) => AddUser(d, u)
    case Remove(u) => RemoveUser(d, u)
    case Search(q) => SearchUsers(d, q)
    case Type(t) => BlurbInputChange(d, t)
  }

  /** The dialog after a sequence of actions from opening. */
  function After(actions: seq<Action>): Dialog
    decreases |actions|
  {
    if |actions| == 0 then Opened() else Step(After(actions[..|actions| - 1]), actions[|actions| - 1])
  }

  /** Whatever the user does, the recipients stay distinct and the message stays within 280
      characters with no whitespace run. */
  lemma {:induction false} AlwaysValid(actions: seq<Action>)
    ensures Valid(After(actions))
    ensures |After(actions).blurb| <= MaxBlurbContentLength
    decreases |actions|
  {
    if |actions| > 0 {
      AlwaysValid(actions[..|actions| - 1]);
    }
  }

  // ---------------------------------------------------------------------------------------
  // Sending the recommendation

  /** The body of the recommendation request; the recording identifiers are optional. */
  datatype Metadata = Metadata(
    users: seq<string>,
    blurbContent: string,
    recordingMbid: Option<string>,
    recordingMsid: Option<string>)

  /** A string identifier that JavaScript treats as present: defined and non-empty. */
  predicate Present(id: Option<string>) {
    id.Some? && id.value != ""
  }

  /** The metadata `submitPersonalRecommendation` assembles from the dialog and the listen's
      recording identifiers. */
  function BuildMetadata(d: Dialog, mbid: Option<string>, msid: Option<string>): (m: Metadata)
    ensures m.users == d.users && m.blurbContent == d.blurb
    ensures m.recordingMbid.Some? <==> Present(mbid)
    ensures m.recordingMbid.Some? ==> m.recordingMbid == mbid
    ensures m.recordingMsid.Some? <==> Present(msid)
    ensures m.recordingMsid.Some? ==> m.recordingMsid == msid
  {
    Metadata(
      d.users, d.blurb,
      if Present(mbid) then mbid else None,
      if Present(msid) then msid else None)
  }

  const TitleStart := "You recommended this track to "

  /** The success toast's title, "user" made plural for more than one recipient. */
  function SuccessTitle(count: nat): (t: string)
    ensures TitleStart <= t && |t| > |TitleStart|
    ensures t[|t| - 1] == 's' <==> count > 1
  {
    TitleStart + NatToString(count) + (if count > 1 then " users" else " user")
  }

  /** The leading run of digits of a string. */
  function LeadingDigits(s: string): (r: string)
    ensures r <= s
    ensures forall i | 0 <= i < |r| :: IsDigit(r[i])
    decreases |s|
  {
    if |s| == 0 || !IsDigit(s[0]) then "" else [s[0]] + LeadingDigits(s[1..])
  }

  /** Digits followed by a non-digit: the leading digits are exactly those digits. */
  lemma {:induction false} LeadingDigitsOf(digits: string, rest: string)
    requires forall i | 0 <= i < |digits| :: IsDigit(digits[i])
    requires |rest| > 0 && !IsDigit(rest[0])
    ensures LeadingDigits(digits + rest) == digits
    decreases |digits|
  {
    if |digits| == 0 {
      assert digits + rest == rest;
    } else {
      assert (digits + rest)[1..] == digits[1..] + rest;
      LeadingDigitsOf(digits[1..], rest);
    }
  }

  /** The count reads back from the title, so distinct counts give distinct titles. */
  lemma SuccessTitleCount(count: nat)
    ensures ParseNat(LeadingDigits(SuccessTitle(count)[|TitleStart|..])) == count
  {
    var digits := NatToString(count);
    var rest := if count > 1 then " users" else " user";
    assert SuccessTitle(count)[|TitleStart|..] == digits + rest;
    LeadingDigitsOf(digits, rest);
    ParseNatToString(count);
  }

  lemma SuccessTitleInjective(m: nat, n: nat)
    requires SuccessTitle(m) == SuccessTitle(n)
    ensures m == n
  {
    SuccessTitleCount(m);
    SuccessTitleCount(n);
  }

  lemma SuccessTitleExamples()
    ensures SuccessTitle(1) == "You recommended this track to 1 user"
    ensures SuccessTitle(2) == "You recommended this track to 2 users"
  {
    assert NatToString(1) == "1";
    assert NatToString(2) == "2";
  }

  /** What pressing "Send Recommendation" leads to. */
  datatype Submission =
    | NotSent                                         // no signed-in user with a token
    | Sent(metadata: Metadata, successTitle: Option<string>)

  /** `submitPersonalRecommendation`: nothing happens without an auth token; otherwise the
      metadata is sent, and a status of 200 shows the success title (any other answer, or an
      error, shows none). */
  function Submit(d: Dialog, authToken: Option<string>, mbid: Option<string>, msid: Option<string>, status: int): (r: Submission)
    ensures r.Sent? <==> Present(authToken)
    ensures r.Sent? ==> r.metadata == BuildMetadata(d, mbid, msid)
    ensures r.Sent? ==> (r.successTitle.Some? <==> status == 200)
    ensures r.Sent? && r.successTitle.Some? ==> r.successTitle.value == SuccessTitle(|d.users|)
  {
    if !Present(authToken) then NotSent
    else Sent(BuildMetadata(d, mbid, msid), if status == 200 then Some(SuccessTitle(|d.users|)) else None)
  }
}

=== FILE: player.dfy ===
/** The BrainzPlayer orchestrator (frontend/js/src/common/brainzplayer/BrainzPlayer.tsx) as an
    immutable state record stepped by pure transition functions. Side effects the player
    performs on the outside world (posting messages, calling a backend, showing a warning,
    submitting a listen) are appended to the `emitted` log of the state. */
module Player {
  import opened Common
  import opened DataSources

  /** How far `seekForward` / `seekBackward` jump (SEEK_TIME_MILLISECONDS). */
  const SeekTimeMs := 5000
  /** Continuous playback needed before a listen is submitted (SUBMIT_LISTEN_AFTER_MS). */
  const SubmitListenAfterMs := 30000
  /** Cadence of the submission check (SUBMIT_LISTEN_UPDATE_INTERVAL). */
  const SubmitListenUpdateInterval := 5000

  const NoListensTitle := "No listens to play"
  const NoMatchTitle := "Could not find a match"
  const CannotPlayTitle := "Cannot play from this source"

  /** A queued track. Its fields are never inspected by the player itself. */
  datatype QueueItem = QueueItem(id: string, trackName: string, artistName: string)

  datatype RepeatMode = Off | All | One

  /** Something the player does to the outside world. */
  datatype Effect =
    | NowPlayingChanged(listen: Option<QueueItem>)  // the "current-listen-change" post
    | StopOtherPlayers                              // cross-tab "pause now" broadcast
    | PlayOn(source: nat, listen: Option<QueueItem>)
    | SeekOn(source: nat, positionMs: int)
    | SubmitListen(listen: Option<QueueItem>)
    | Warning(title: string)

  datatype PlayerState = PlayerState(
    queue: seq<QueueItem>,
    ambientQueue: seq<QueueItem>,
    currentListenIndex: int,
    currentListen: Option<QueueItem>,
    isActivated: bool,
    repeatMode: RepeatMode,
    dataSources: seq<DataSource>,
    currentDataSourceIndex: int,
    paused: bool,
    durationMs: int,
    progressMs: int,
    continuousPlaybackTime: int,
    listenSubmitted: bool,
    timerRunning: bool,
    emitted: seq<Effect>)

  /** `isListenFromThisService` of each service, taken as given: does the service recognise
      the item as its own? */
  type Ownership = (SourceKey, QueueItem) -> bool

  // ---------------------------------------------------------------------------------------
  // Reading the effect log

  /** The backends asked to play, in order. */
  function Plays(effects: seq<Effect>): seq<nat> {
    if |effects| == 0 then []
    else (if effects[0].PlayOn? then [effects[0].source] else []) + Plays(effects[1..])
  }

  /** How many listens were submitted. */
  function Submissions(effects: seq<Effect>): nat {
    if |effects| == 0 then 0
    else (if effects[0].SubmitListen? then 1 else 0) + Submissions(effects[1..])
  }

  lemma {:induction false} PlaysConcat(a: seq<Effect>, b: seq<Effect>)
    ensures Plays(a + b) == Plays(a) + Plays(b)
  {
    if |a| == 0 {
      assert a + b == b;
    } else {
      var head := if a[0].PlayOn? then [a[0].source] else [];
      assert (a + b)[0] == a[0] && (a + b)[1..] == a[1..] + b;
      assert Plays(a + b) == head + Plays(a[1..] + b);
      PlaysConcat(a[1..], b);
      assert head + (Plays(a[1..]) + Plays(b)) == (head + Plays(a[1..])) + Plays(b);
    }
  }

  lemma {:induction false} SubmissionsConcat(a: seq<Effect>, b: seq<Effect>)
    ensures Submissions(a + b) == Submissions(a) + Submissions(b)
  {
    if |a| == 0 {
      assert a + b == b;
    } else {
      assert (a + b)[0] == a[0] && (a + b)[1..] == a[1..] + b;
      SubmissionsConcat(a[1..], b);
    }
  }

  function Warn(s: PlayerState, title: string): PlayerState {
    s.(emitted := s.emitted + [Warning(title)])
  }

  // ---------------------------------------------------------------------------------------
  // Invariants and frames

  /** The part of the state `playNextTrack` moves: both queues, the cursor, the track at the
      cursor and whether the playback timer runs. */
  datatype Cursor = Cursor(queue: seq<QueueItem>, ambient: seq<QueueItem>, index: int, listen: Option<QueueItem>, running: bool)

  function CursorOf(s: PlayerState): Cursor {
    Cursor(s.queue, s.ambientQueue, s.currentListenIndex, s.currentListen, s.timerRunning)
  }

  /** The cursor's track is the item of the main queue it points at. */
  predicate CursorConsistent(c: Cursor) {
    c.listen.Some? ==> 0 <= c.index < |c.queue| && c.queue[c.index] == c.listen.value
  }

  /** The track being played is the one at the cursor of the main queue. */
  predicate Consistent(s: PlayerState) {
    CursorConsistent(CursorOf(s))
  }

  /** Fields only the registry, the user or the playback timer change. */
  predicate SameSettings(s: PlayerState, r: PlayerState) {
    && r.repeatMode == s.repeatMode
    && r.dataSources == s.dataSources
    && r.paused == s.paused
    && r.durationMs == s.durationMs
    && r.progressMs == s.progressMs
    && r.timerRunning == s.timerRunning
  }

  // ---------------------------------------------------------------------------------------
  // Backend selection

  /** `isListenFromDatasource`: an undefined listen belongs to no service. */
  predicate Owns(owns: Ownership, source: DataSource, listen: Option<QueueItem>) {
    listen.Some? && owns(source.key, listen.value)
  }

  /** A handle that exists and that either owns the listen or can search for it. */
  predicate Acceptable(sources: seq<DataSource>, owns: Ownership, listen: Option<QueueItem>, j: int) {
    0 <= j < |sources| && (Owns(owns, sources[j], listen) || sources[j].canSearch)
  }

  ghost predicate HasOwner(sources: seq<DataSource>, owns: Ownership, listen: Option<QueueItem>) {
    exists j | 0 <= j < |sources| :: Owns(owns, sources[j], listen)
  }

  /** `k` is the backend a fallback chain starting at `dsIndex` settles on: from index 0 the
      first owner if there is one, otherwise the first acceptable handle at or after `dsIndex`. */
  ghost predicate Selected(sources: seq<DataSource>, owns: Ownership, listen: Option<QueueItem>, dsIndex: int, k: int) {
    && 0 <= dsIndex
    && Acceptable(sources, owns, listen, k)
    && if dsIndex == 0 && HasOwner(sources, owns, listen) then
         Owns(owns, sources[k], listen) && forall j | 0 <= j < k :: !Owns(owns, sources[j], listen)
       else
         dsIndex <= k && forall j | dsIndex <= j < k :: !Acceptable(sources, owns, listen, j)
  }

  /** No backend can be settled on: a negative start, or no owner to jump to and no acceptable
      handle at or after the start. */
  ghost predicate NothingSelectable(sources: seq<DataSource>, owns: Ownership, listen: Option<QueueItem>, dsIndex: int) {
    || dsIndex < 0
    || (&& !(dsIndex == 0 && HasOwner(sources, owns, listen))
        && forall j | dsIndex <= j < |sources| :: !Acceptable(sources, owns, listen, j))
  }

  /** `findIndex` over the handles for one that owns the listen, from `from` on; -1 if none. */
  function FindOwner(sources: seq<DataSource>, owns: Ownership, listen: Option<QueueItem>, from: nat): (r: int)
    requires from <= |sources|
    ensures r == -1 || from <= r < |sources|
    ensures r == -1 ==> forall j | from <= j < |sources| :: !Owns(owns, sources[j], listen)
    ensures r != -1 ==> Owns(owns, sources[r], listen) && forall j | from <= j < r :: !Owns(owns, sources[j], listen)
    decreases |sources| - from
  {
    if from == |sources| then -1
    else if Owns(owns, sources[from], listen) then from
    else FindOwner(sources, owns, listen, from + 1)
  }

  /** The first part of `playListen`: the cursor, the current listen, activation, and a fresh
      continuous-playback count and submission gate, announced to the page. */
  function StartTrack(s: PlayerState, listen: Option<QueueItem>, index: int): (r: PlayerState)
    ensures r.currentListenIndex == index && r.currentListen == listen
    ensures r.isActivated && r.continuousPlaybackTime == 0 && !r.listenSubmitted
    ensures r.queue == s.queue && r.ambientQueue == s.ambientQueue && SameSettings(s, r)
    ensures r.currentDataSourceIndex == s.currentDataSourceIndex
    ensures Plays(r.emitted) == Plays(s.emitted) && Submissions(r.emitted) == Submissions(s.emitted)
  {
    var e := [NowPlayingChanged(listen)];
    PlaysConcat(s.emitted, e);
    SubmissionsConcat(s.emitted, e);
    s.(currentListenIndex := index, currentListen := listen, isActivated := true,
       continuousPlaybackTime := 0, listenSubmitted := false,
       emitted := s.emitted + e)
  }

  /** The last part of `playListen`: pause every other player and hand the listen to handle `k`. */
  function StartBackend(s: PlayerState, listen: Option<QueueItem>, k: nat): (r: PlayerState)
    ensures r == s.(currentDataSourceIndex := k, emitted := r.emitted)
    ensures Plays(r.emitted) == Plays(s.emitted) + [k] && Submissions(r.emitted) == Submissions(s.emitted)
    ensures |r.emitted| > 0 && r.emitted[|r.emitted| - 1] == PlayOn(k, listen)
  {
    var e := [StopOtherPlayers, PlayOn(k, listen)];
    PlaysConcat(s.emitted, e);
    SubmissionsConcat(s.emitted, e);
    assert e[1..] == [PlayOn(k, listen)] && e[1..][1..] == [];
    assert Plays(e[1..][1..]) == [] && Submissions(e[1..][1..]) == 0;
    assert Plays(e[1..]) == [k] && Submissions(e[1..]) == 0;
    assert Plays(e) == [k] && Submissions(e) == 0;
    s.(currentDataSourceIndex := k, emitted := s.emitted + e)
  }

  /** `selectedDatasourceIndex`: from index 0 the first handle owning the listen, or handle 0
      when none does; from any other index that index itself. */
  function SelectedIndex(sources: seq<DataSource>, owns: Ownership, listen: Option<QueueItem>, dsIndex: int): (k: int)
    ensures dsIndex != 0 ==> k == dsIndex
    ensures dsIndex == 0 && HasOwner(sources, owns, listen) ==>
      0 <= k < |sources| && Owns(owns, sources[k], listen) && forall j | 0 <= j < k :: !Owns(owns, sources[j], listen)
    ensures dsIndex == 0 && !HasOwner(sources, owns, listen) ==> k == 0
  {
    if dsIndex == 0 then
      var owner := FindOwner(sources, owns, listen, 0);
      if owner == -1 then 0 else owner
    else dsIndex
  }

  /** No handle at the selected index: nothing can be selected. */
  lemma MissingHandleSelectsNothing(sources: seq<DataSource>, owns: Ownership, listen: Option<QueueItem>, dsIndex: int)
    requires var k := SelectedIndex(sources, owns, listen, dsIndex); !(0 <= k < |sources|)
    ensures NothingSelectable(sources, owns, listen, dsIndex)
  {
  }

  /** A handle that is there but cannot serve the listen is skipped: what the chain settles on
      from the next index is what it settles on from this one. */
  lemma SkippedHandle(sources: seq<DataSource>, owns: Ownership, listen: Option<QueueItem>, dsIndex: int)
    requires var k := SelectedIndex(sources, owns, listen, dsIndex);
      0 <= k < |sources| && !Acceptable(sources, owns, listen, k)
    ensures SelectedIndex(sources, owns, listen, dsIndex) == dsIndex >= 0
    ensures NothingSelectable(sources, owns, listen, dsIndex + 1) <==> NothingSelectable(sources, owns, listen, dsIndex)
    ensures forall k | Selected(sources, owns, listen, dsIndex + 1, k) :: Selected(sources, owns, listen, dsIndex, k)
  {
  }

  /** A handle at the selected index that can serve the listen is the one settled on. */
  lemma AcceptedHandle(sources: seq<DataSource>, owns: Ownership, listen: Option<QueueItem>, dsIndex: int)
    requires var k := SelectedIndex(sources, owns, listen, dsIndex);
      0 <= k < |sources| && Acceptable(sources, owns, listen, k)
    ensures !NothingSelectable(sources, owns, listen, dsIndex)
    ensures Selected(sources, owns, listen, dsIndex, SelectedIndex(sources, owns, listen, dsIndex))
  {
    var k := SelectedIndex(sources, owns, listen, dsIndex);
    if dsIndex == 0 && !HasOwner(sources, owns, listen) {
      assert k == 0;
    }
  }

  /** `playListen(listen, index, dsIndex)`. Every attempt restarts the track; a handle that
      neither owns the listen nor can search is skipped by trying again one index further, so
      the chain ends when a handle is accepted or the list runs out. */
  function PlayListen(s: PlayerState, owns: Ownership, listen: Option<QueueItem>, index: int, dsIndex: int): (r: PlayerState)
    ensures r.currentListenIndex == index && r.currentListen == listen
    ensures r.isActivated && r.continuousPlaybackTime == 0 && !r.listenSubmitted
    ensures r.queue == s.queue && r.ambientQueue == s.ambientQueue && SameSettings(s, r)
    ensures Submissions(r.emitted) == Submissions(s.emitted)
    ensures NothingSelectable(s.dataSources, owns, listen, dsIndex) ==>
      r.currentDataSourceIndex == s.currentDataSourceIndex && Plays(r.emitted) == Plays(s.emitted)
    ensures !NothingSelectable(s.dataSources, owns, listen, dsIndex) ==>
      && Selected(s.dataSources, owns, listen, dsIndex, r.currentDataSourceIndex)
      && Plays(r.emitted) == Plays(s.emitted) + [r.currentDataSourceIndex]
      && |r.emitted| > 0 && r.emitted[|r.emitted| - 1] == PlayOn(r.currentDataSourceIndex, listen)
    decreases |s.dataSources| - dsIndex
  {
    var s1 := StartTrack(s, listen, index);
    var sources := s.dataSources;
    var selected := SelectedIndex(sources, owns, listen, dsIndex);
    if !(0 <= selected < |sources|) then
      MissingHandleSelectsNothing(sources, owns, listen, dsIndex);
      s1
    else if !Acceptable(sources, owns, listen, selected) then
      SkippedHandle(sources, owns, listen, dsIndex);
      PlayListen(s1, owns, listen, index, dsIndex + 1)
    else
      AcceptedHandle(sources, owns, listen, dsIndex);
      StartBackend(s1, listen, selected)
  }

  // ---------------------------------------------------------------------------------------
  // Queue advancement

  /** The index `playNextTrack` aims for before looking at the queue's length: repeat one
      stays on the cursor (moving off -1), otherwise one step forward or back, and a negative
      index wraps to the last item of the main queue. */
  function TargetIndex(repeat: RepeatMode, index: int, queueLength: int, invert: bool): int {
    var i :=
      if repeat == One then index + (if index < 0 then 1 else 0)
      else index + (if invert then -1 else 1);
    if i < 0 then queueLength - 1 else i
  }

  /** The cursor moved onto the item at `i` of the main queue. */
  function At(c: Cursor, i: int): (r: Cursor)
    requires 0 <= i < |c.queue|
    ensures r.queue == c.queue && r.ambient == c.ambient && r.running == c.running
    ensures r.index == i && r.listen == Some(c.queue[i])
  {
    c.(index := i, listen := Some(c.queue[i]))
  }

  /** How `playNextTrack(invert)` moves the cursor of an activated player: to the next (or,
      inverted, previous) item of the main queue; past its end, the front of the ambient queue
      is moved to the end of the main queue and played, or else the timer stops (repeat off)
      or playback starts over at the first item. */
  function NextCursor(c: Cursor, repeat: RepeatMode, invert: bool): (r: Cursor)
    // Items only ever move from the front of the ambient queue to the end of the main queue.
    ensures r.queue + r.ambient == c.queue + c.ambient
    ensures r.queue == c.queue || (|c.ambient| > 0 && r.queue == c.queue + [c.ambient[0]])
    // Repeat one replays the item at the cursor, and moves a cursor at -1 onto the first item.
    ensures repeat == One && 0 <= c.index < |c.queue| ==> r == At(c, c.index)
    ensures repeat == One && c.index == -1 && |c.queue| > 0 ==> r == At(c, 0)
    // One step forward, or back, inside the main queue.
    ensures repeat != One && 0 <= c.index + (if invert then -1 else 1) < |c.queue| ==>
      r == At(c, c.index + (if invert then -1 else 1))
    // Stepping back from the first item, or from before it, wraps to the last one.
    ensures repeat != One && invert && c.index <= 0 && |c.queue| > 0 ==> r == At(c, |c.queue| - 1)
    // Whenever the target index is past the end of the main queue, the ambient queue's front
    // is promoted and played ...
    ensures TargetIndex(repeat, c.index, |c.queue|, invert) >= |c.queue| && |c.ambient| > 0 ==>
      r == Cursor(c.queue + [c.ambient[0]], c.ambient[1..], |c.queue|, Some(c.ambient[0]), c.running)
    // ... and with nothing ambient, repeat off stops the timer ...
    ensures TargetIndex(repeat, c.index, |c.queue|, invert) >= |c.queue| && |c.ambient| == 0 && |c.queue| > 0 ==>
      r == if repeat == Off then c.(running := false) else At(c, 0)
    // ... while any other mode starts over at the first item; with both queues empty nothing moves.
    ensures |c.queue| == 0 && |c.ambient| == 0 ==> r == c
    ensures CursorConsistent(c) ==> CursorConsistent(r)
    // Only the stop at the end of the queue touches the timer.
    ensures !(TargetIndex(repeat, c.index, |c.queue|, invert) >= |c.queue| && |c.ambient| == 0 && repeat == Off) ==>
      r.running == c.running
  {
    if |c.queue| == 0 && |c.ambient| == 0 then c
    else
      var next := TargetIndex(repeat, c.index, |c.queue|, invert);
      if next < |c.queue| then c.(index := next, listen := if 0 <= next then Some(c.queue[next]) else None)
      else if |c.ambient| > 0 then
        var r := Cursor(c.queue + [c.ambient[0]], c.ambient[1..], |c.queue|, Some(c.ambient[0]), c.running);
        assert r.queue + r.ambient == c.queue + c.ambient;
        r
      else if repeat == Off then c.(running := false)
      else if |c.queue| > 0 then At(c, 0)
      else c
  }

  /** The step runs past the end of the main queue with nothing ambient under repeat off,
      where `playNextTrack` only stops the timer. */
  predicate HaltsAtEnd(s: PlayerState, invert: bool) {
    && TargetIndex(s.repeatMode, s.currentListenIndex, |s.queue|, invert) >= |s.queue|
    && |s.ambientQueue| == 0 && s.repeatMode == Off
  }

  /** `playNextTrack(invert)`: moves the cursor as `NextCursor` says and starts the item it
      lands on; a stop at the end of the queue plays nothing, and with both queues empty the
      player only warns. */
  function PlayNextTrack(s: PlayerState, owns: Ownership, invert: bool): (r: PlayerState)
    ensures !s.isActivated ==> r == s
    ensures s.isActivated ==> CursorOf(r) == NextCursor(CursorOf(s), s.repeatMode, invert) && r.isActivated
    ensures s.isActivated && |s.queue| == 0 && |s.ambientQueue| == 0 ==> r == Warn(s, NoListensTitle)
    ensures r.repeatMode == s.repeatMode && r.dataSources == s.dataSources
    ensures s.isActivated && !(|s.queue| == 0 && |s.ambientQueue| == 0) && HaltsAtEnd(s, invert) ==>
      r == s.(timerRunning := false)
    ensures (&& s.isActivated && s.repeatMode == Off && !invert && s.currentListenIndex == |s.queue| - 1
             && |s.queue| > 0 && |s.ambientQueue| == 0) ==> r == s.(timerRunning := false)
    // Any other step starts the item landed on, choosing its backend from data source 0.
    ensures s.isActivated && !(|s.queue| == 0 && |s.ambientQueue| == 0) && !HaltsAtEnd(s, invert) ==>
      && r.continuousPlaybackTime == 0 && !r.listenSubmitted
      && (|| (NothingSelectable(s.dataSources, owns, r.currentListen, 0) && Plays(r.emitted) == Plays(s.emitted))
          || (&& Selected(s.dataSources, owns, r.currentListen, 0, r.currentDataSourceIndex)
              && Plays(r.emitted) == Plays(s.emitted) + [r.currentDataSourceIndex]))
  {
    if !s.isActivated then s
    else if |s.queue| == 0 && |s.ambientQueue| == 0 then Warn(s, NoListensTitle)
    else if HaltsAtEnd(s, invert) then
      s.(timerRunning := false)
    else
      var c := NextCursor(CursorOf(s), s.repeatMode, invert);
      PlayListen(s.(queue := c.queue, ambientQueue := c.ambient), owns, c.listen, c.index, 0)
  }

  /** `playPreviousTrack`. */
  function PlayPreviousTrack(s: PlayerState, owns: Ownership): (r: PlayerState)
    ensures r.queue == s.queue || (|s.ambientQueue| > 0 && r.queue == s.queue + [s.ambientQueue[0]])
    // From a cursor inside the main queue, stepping back never touches the ambient queue.
    ensures 0 <= s.currentListenIndex < |s.queue| ==> r.queue == s.queue && r.ambientQueue == s.ambientQueue
    ensures Consistent(s) ==> Consistent(r)
  {
    PlayNextTrack(s, owns, true)
  }

  /** With an empty main queue and a non-empty ambient queue, stepping back aims at index -1
      and starts an undefined listen there; the ambient queue is left alone. */
  lemma PreviousOnEmptyMainQueue(s: PlayerState, owns: Ownership)
    requires s.isActivated && s.repeatMode != One && |s.queue| == 0 && |s.ambientQueue| > 0
    requires s.currentListenIndex <= 0
    ensures var r := PlayPreviousTrack(s, owns);
      r.currentListenIndex == -1 && r.currentListen == None && r.ambientQueue == s.ambientQueue
  {
  }

  /** Applying `playNextTrack` `n` times. */
  function AdvanceTimes(s: PlayerState, owns: Ownership, n: nat): PlayerState
    decreases n
  {
    if n == 0 then s else AdvanceTimes(PlayNextTrack(s, owns, false), owns, n - 1)
  }

  /** Splitting a run of steps: `a + b` steps are `a` steps followed by `b` steps. */
  lemma {:induction false} AdvanceAdd(s: PlayerState, owns: Ownership, a: nat, b: nat, total: nat)
    requires a + b == total
    ensures AdvanceTimes(s, owns, total) == AdvanceTimes(AdvanceTimes(s, owns, a), owns, b)
    decreases a
  {
    if a > 0 {
      AdvanceAdd(PlayNextTrack(s, owns, false), owns, a - 1, b, total - 1);
    }
  }

  function CursorAfter(c: Cursor, repeat: RepeatMode, n: nat): Cursor
    decreases n
  {
    if n == 0 then c else CursorAfter(NextCursor(c, repeat, false), repeat, n - 1)
  }

  /** `n` steps of the player move its cursor as `n` steps of `NextCursor`. */
  lemma {:induction false} AdvanceCursor(s: PlayerState, owns: Ownership, n: nat)
    requires s.isActivated
    ensures var r := AdvanceTimes(s, owns, n);
      CursorOf(r) == CursorAfter(CursorOf(s), s.repeatMode, n) && r.isActivated && r.repeatMode == s.repeatMode
    decreases n
  {
    if n > 0 {
      var t := PlayNextTrack(s, owns, false);
      assert CursorOf(t) == NextCursor(CursorOf(s), s.repeatMode, false);
      AdvanceCursor(t, owns, n - 1);
      assert AdvanceTimes(s, owns, n) == AdvanceTimes(t, owns, n - 1);
    }
  }

  lemma {:induction false} CursorAfterAdd(c: Cursor, repeat: RepeatMode, a: nat, b: nat, total: nat)
    requires a + b == total
    ensures CursorAfter(c, repeat, total) == CursorAfter(CursorAfter(c, repeat, a), repeat, b)
    decreases a
  {
    if a > 0 {
      CursorAfterAdd(NextCursor(c, repeat, false), repeat, a - 1, b, total - 1);
    }
  }

  /** Outside repeat one and with nothing ambient, each step moves the cursor one item forward
      while the main queue has items left. */
  lemma {:induction false} WalkForward(c: Cursor, repeat: RepeatMode, n: nat, target: int)
    requires repeat != One && c.ambient == []
    requires 0 <= c.index && target == c.index + n && target < |c.queue|
    requires c.listen == Some(c.queue[c.index])
    ensures CursorAfter(c, repeat, n) == At(c, target)
    decreases n
  {
    if n == 0 {
      assert At(c, target) == c;
    } else {
      var d := At(c, c.index + 1);
      assert NextCursor(c, repeat, false) == d;
      WalkForward(d, repeat, n - 1, target);
      assert At(d, target) == At(c, target);
    }
  }

  /** Repeat all, nothing ambient: each step moves the cursor one item forward, from the last
      item to the first. */
  lemma {:induction false} WalkAround(c: Cursor, n: nat)
    requires c.ambient == []
    requires 0 <= c.index < |c.queue| && c.listen == Some(c.queue[c.index])
    requires n <= |c.queue|
    ensures CursorAfter(c, All, n)
         == At(c, if c.index + n < |c.queue| then c.index + n else c.index + n - |c.queue|)
    decreases n
  {
    if n == 0 {
      assert At(c, c.index) == c;
    } else {
      var d := At(c, if c.index + 1 < |c.queue| then c.index + 1 else 0);
      assert NextCursor(c, All, false) == d;
      WalkAround(d, n - 1);
      var p := if d.index + n - 1 < |c.queue| then d.index + n - 1 else d.index + n - 1 - |c.queue|;
      assert p == if c.index + n < |c.queue| then c.index + n else c.index + n - |c.queue|;
      assert At(d, p) == At(c, p);
    }
  }

  /** Repeat all, nothing ambient: as many steps as the main queue has items come back to
      where they started. */
  lemma CursorFullCycle(c: Cursor)
    requires c.ambient == []
    requires 0 <= c.index < |c.queue| && c.listen == Some(c.queue[c.index])
    ensures CursorAfter(c, All, |c.queue|) == c
  {
    WalkAround(c, |c.queue|);
    assert At(c, c.index) == c;
  }

  /** Past the end of the main queue, `n` steps promote the first `n` ambient items, in order,
      and the cursor follows the last one moved. */
  lemma {:induction false} CursorPromotes(c: Cursor, repeat: RepeatMode, n: nat)
    requires repeat != One && c.index == |c.queue| - 1 && n <= |c.ambient|
    ensures var r := CursorAfter(c, repeat, n);
      && r.queue == c.queue + c.ambient[..n] && r.ambient == c.ambient[n..]
      && r.index == |r.queue| - 1
      && (n > 0 ==> r.listen == Some(c.ambient[n - 1]))
    decreases n
  {
    if n > 0 {
      var d := Cursor(c.queue + [c.ambient[0]], c.ambient[1..], |c.queue|, Some(c.ambient[0]), c.running);
      assert NextCursor(c, repeat, false) == d;
      CursorPromotes(d, repeat, n - 1);
      assert d.queue + d.ambient[..n - 1] == c.queue + c.ambient[..n];
      assert d.ambient[n - 1..] == c.ambient[n..];
      assert n > 1 ==> d.ambient[n - 2] == c.ambient[n - 1];
    }
  }

  /** Repeat all with nothing ambient: after as many steps as the queue has items, the cursor
      is back on the item it started from. */
  lemma RepeatAllFullCycle(s: PlayerState, owns: Ownership)
    requires s.isActivated && s.repeatMode == All && |s.ambientQueue| == 0
    requires Consistent(s) && s.currentListen.Some?
    ensures var r := AdvanceTimes(s, owns, |s.queue|);
      r.queue == s.queue && r.currentListenIndex == s.currentListenIndex && r.currentListen == s.currentListen
  {
    AdvanceCursor(s, owns, |s.queue|);
    CursorFullCycle(CursorOf(s));
  }

  /** With repeat off and nothing ambient, the step after the last item halts the timer and
      plays nothing. */
  lemma RepeatOffStopsAtEnd(s: PlayerState, owns: Ownership)
    requires s.isActivated && s.repeatMode == Off && |s.ambientQueue| == 0
    requires Consistent(s) && s.currentListen.Some?
    ensures var t := AdvanceTimes(s, owns, |s.queue| - 1 - s.currentListenIndex);
      && t.currentListenIndex == |s.queue| - 1
      && AdvanceTimes(s, owns, |s.queue| - s.currentListenIndex) == t.(timerRunning := false)
  {
    var m := |s.queue| - 1 - s.currentListenIndex;
    WalkToLast(s, owns);
    var t := AdvanceTimes(s, owns, m);
    StopAtLast(t, owns);
    AdvanceAdd(s, owns, m, 1, m + 1);
    assert AdvanceTimes(s, owns, m + 1) == AdvanceTimes(t, owns, 1);
  }

  /** Outside repeat one with nothing ambient, the player walks to the last item. */
  lemma WalkToLast(s: PlayerState, owns: Ownership)
    requires s.isActivated && s.repeatMode != One && |s.ambientQueue| == 0
    requires Consistent(s) && s.currentListen.Some?
    ensures var t := AdvanceTimes(s, owns, |s.queue| - 1 - s.currentListenIndex);
      && t.isActivated && t.repeatMode == s.repeatMode && t.ambientQueue == [] && t.queue == s.queue
      && t.currentListenIndex == |s.queue| - 1
  {
    var c := CursorOf(s);
    var n := |s.queue| - 1 - s.currentListenIndex;
    var t := AdvanceTimes(s, owns, n);
    AdvanceCursor(s, owns, n);
    WalkForward(c, s.repeatMode, n, |s.queue| - 1);
    assert CursorOf(t) == At(c, |s.queue| - 1);
  }

  /** Repeat off at the last item with nothing ambient: one more step only stops the timer. */
  lemma StopAtLast(t: PlayerState, owns: Ownership)
    requires t.isActivated && t.repeatMode == Off && t.ambientQueue == [] && |t.queue| > 0
    requires t.currentListenIndex == |t.queue| - 1
    ensures AdvanceTimes(t, owns, 1) == t.(timerRunning := false)
  {
    assert AdvanceTimes(t, owns, 1) == PlayNextTrack(t, owns, false);
  }

  /** `n` promotions from the ambient queue: the first `n` ambient items move, in order, to
      the end of the main queue, and the cursor follows the last one moved. */
  lemma AmbientPromotions(s: PlayerState, owns: Ownership, n: nat)
    requires s.isActivated && s.repeatMode != One
    requires s.currentListenIndex == |s.queue| - 1
    requires n <= |s.ambientQueue|
    ensures var r := AdvanceTimes(s, owns, n);
      && r.queue == s.queue + s.ambientQueue[..n] && r.ambientQueue == s.ambientQueue[n..]
      && r.currentListenIndex == |r.queue| - 1
      && (n > 0 ==> r.currentListen == Some(s.ambientQueue[n - 1]))
  {
    AdvanceCursor(s, owns, n);
    CursorPromotes(CursorOf(s), s.repeatMode, n);
  }

  // ---------------------------------------------------------------------------------------
  // Backend failure and the registry

  /** Room left for falling back: how many handles come after the current one. */
  function FallbackRoom(s: PlayerState): int {
    |s.dataSources| - 1 - s.currentDataSourceIndex
  }

  /** `failedToPlayTrack`: retry the same listen at the same index on the next backend while
      one remains; otherwise warn, stop the timer and move on to the next track. */
  function FailedToPlayTrack(s: PlayerState, owns: Ownership): (r: PlayerState)
    ensures !s.isActivated ==> r == s
    ensures s.isActivated && s.currentListen.Some? && FallbackRoom(s) > 0 ==>
      && r.currentListen == s.currentListen && r.currentListenIndex == s.currentListenIndex
      && r.queue == s.queue && r.ambientQueue == s.ambientQueue && r.dataSources == s.dataSources
      // a retry that starts a backend starts a later one, so the chain is finite
      && (|| Plays(r.emitted) == Plays(s.emitted)
          || (Plays(r.emitted) == Plays(s.emitted) + [r.currentDataSourceIndex] && FallbackRoom(r) < FallbackRoom(s)))
      // the backend retried is the one the chain settles on from the next index
      && (Plays(r.emitted) != Plays(s.emitted) ==>
            Selected(s.dataSources, owns, s.currentListen, s.currentDataSourceIndex + 1, r.currentDataSourceIndex))
      && (Plays(r.emitted) == Plays(s.emitted) ==>
            NothingSelectable(s.dataSources, owns, s.currentListen, s.currentDataSourceIndex + 1))
    ensures s.isActivated && !(s.currentListen.Some? && FallbackRoom(s) > 0) ==>
      r == PlayNextTrack(Warn(s, NoMatchTitle).(timerRunning := false), owns, false)
    ensures Consistent(s) ==> Consistent(r)
  {
    if !s.isActivated then s
    else if s.currentListen.Some? && s.currentDataSourceIndex < |s.dataSources| - 1 then
      PlayListen(s, owns, s.currentListen, s.currentListenIndex, s.currentDataSourceIndex + 1)
    else
      PlayNextTrack(Warn(s, NoMatchTitle).(timerRunning := false), owns, false)
  }

  /** The position `invalidateDataSource` acts on: the named handle's (-1 when it is not in
      the list), or the current index when no handle is named. */
  function ResolvedIndex(s: PlayerState, target: Option<SourceKey>): int {
    match target
    case Some(key) => IndexOfKey(s.dataSources, key)
    case None => s.currentDataSourceIndex
  }

  /** `invalidateDataSource(dataSource?, message?)`: removes the named handle, or the current
      one when none is named, keeping the order of the rest; a missing handle changes nothing.
      The current data-source index is not adjusted. */
  function InvalidateDataSource(s: PlayerState, target: Option<SourceKey>, message: Option<string>): (r: PlayerState)
    ensures r == s.(dataSources := Invalidate(s.dataSources, s.currentDataSourceIndex, target), emitted := r.emitted)
    // The warning is shown whenever the resolved index is non-negative and a message was
    // given, also when that index is past the end of the list and nothing is removed.
    ensures r.emitted == s.emitted || r.emitted == s.emitted + [Warning(CannotPlayTitle)]
    ensures r.emitted != s.emitted <==> ResolvedIndex(s, target) >= 0 && message.Some? && message.value != ""
  {
    var index := ResolvedIndex(s, target);
    if index >= 0 then
      var warned := if message.Some? && message.value != "" then Warn(s, CannotPlayTitle) else s;
      warned.(dataSources := Invalidate(s.dataSources, s.currentDataSourceIndex, target))
    else s
  }

  /** Once a service's only handle is invalidated, no later `playListen` starts it. */
  lemma InvalidatedSourceIsNeverPlayed(s: PlayerState, owns: Ownership, key: SourceKey, message: Option<string>,
                                       listen: Option<QueueItem>, index: int, dsIndex: int)
    requires key in Keys(s.dataSources) && NoDup(Keys(s.dataSources))
    ensures var t := InvalidateDataSource(s, Some(key), message);
      var r := PlayListen(t, owns, listen, index, dsIndex);
      || Plays(r.emitted) == Plays(t.emitted)
      || (&& Plays(r.emitted) == Plays(t.emitted) + [r.currentDataSourceIndex]
          && 0 <= r.currentDataSourceIndex < |r.dataSources|
          && r.dataSources[r.currentDataSourceIndex].key != key)
  {
    var t := InvalidateDataSource(s, Some(key), message);
    var r := PlayListen(t, owns, listen, index, dsIndex);
    if !NothingSelectable(t.dataSources, owns, listen, dsIndex) {
      var k := r.currentDataSourceIndex;
      assert Keys(t.dataSources)[k] == t.dataSources[k].key;
    }
  }

  // ---------------------------------------------------------------------------------------
  // Queue editing

  /** `clearQueue`: keep only the item at the cursor (nothing if the cursor is off the queue)
      and put the cursor on it. */
  function ClearQueue(s: PlayerState): (r: PlayerState)
    ensures |r.queue| <= 1 && r.currentListenIndex == 0
    ensures r.(queue := s.queue, currentListenIndex := s.currentListenIndex) == s
    ensures Consistent(s) && s.currentListen.Some? ==> r.queue == [s.currentListen.value]
    ensures 0 <= s.currentListenIndex < |s.queue| ==> |r.queue| == 1 && r.queue[r.currentListenIndex] == s.queue[s.currentListenIndex]
    ensures Consistent(s) ==> Consistent(r)
  {
    s.(queue := if 0 <= s.currentListenIndex < |s.queue| then [s.queue[s.currentListenIndex]] else [],
       currentListenIndex := 0)
  }

  /** `playNextListenFromQueue(dsIndex)`: start whatever sits right after the cursor
      (an undefined listen when nothing does). */
  function PlayNextListenFromQueue(s: PlayerState, owns: Ownership, dsIndex: int): (r: PlayerState)
    ensures r.currentListenIndex == s.currentListenIndex + 1
    ensures 0 <= s.currentListenIndex + 1 < |s.queue| <==> r.currentListen.Some?
    ensures r.queue == s.queue && r.ambientQueue == s.ambientQueue
    ensures Consistent(r)
  {
    var next := s.currentListenIndex + 1;
    PlayListen(s, owns, if 0 <= next < |s.queue| then Some(s.queue[next]) else None, next, dsIndex)
  }

  // ---------------------------------------------------------------------------------------
  // Listen submission

  /** Continuous playback required before a listen counts: 30 s, or 5 s less than the track's
      duration when that is shorter. */
  function SubmissionThreshold(durationMs: int): (r: int)
    ensures r <= SubmitListenAfterMs
    ensures durationMs > 0 ==> r <= durationMs - SubmitListenUpdateInterval
    ensures r == SubmitListenAfterMs || (durationMs > 0 && r == durationMs - SubmitListenUpdateInterval)
  {
    if durationMs > 0 then
      if SubmitListenAfterMs <= durationMs - SubmitListenUpdateInterval then SubmitListenAfterMs
      else durationMs - SubmitListenUpdateInterval
    else SubmitListenAfterMs
  }

  lemma ThresholdExamples()
    ensures SubmissionThreshold(40000) == 30000
    ensures SubmissionThreshold(10000) == 5000
    ensures SubmissionThreshold(0) == 30000
  {
  }

  /** `checkProgressAndSubmitListen`, called directly: with a signed-in user and nothing yet
      submitted for this track, submit once continuous playback reaches the threshold. */
  function CheckProgressAndSubmitListen(s: PlayerState, hasAuthToken: bool): (r: PlayerState)
    ensures !hasAuthToken || s.listenSubmitted ==> r == s
    ensures hasAuthToken && !s.listenSubmitted ==>
      (r.listenSubmitted <==> s.continuousPlaybackTime >= SubmissionThreshold(s.durationMs))
    ensures r.(listenSubmitted := s.listenSubmitted, emitted := s.emitted) == s
    ensures s.emitted <= r.emitted
    ensures Submissions(r.emitted) == Submissions(s.emitted) + (if r.listenSubmitted && !s.listenSubmitted then 1 else 0)
    ensures s.listenSubmitted ==> r.listenSubmitted
  {
    if !hasAuthToken || s.listenSubmitted then s
    else if s.continuousPlaybackTime >= SubmissionThreshold(s.durationMs) then
      SubmissionsConcat(s.emitted, [SubmitListen(s.currentListen)]);
      s.(listenSubmitted := true, emitted := s.emitted + [SubmitListen(s.currentListen)])
    else s
  }

  /** Successive submission checks of one track instance, with the continuous playback time
      reaching `times[i]` before check `i`. */
  function CheckAt(s: PlayerState, hasAuthToken: bool, times: seq<int>): PlayerState
    decreases |times|
  {
    if |times| == 0 then s
    else CheckAt(CheckProgressAndSubmitListen(s.(continuousPlaybackTime := times[0]), hasAuthToken), hasAuthToken, times[1..])
  }

  /** A track instance is submitted at most once, however often the submission check runs,
      and never again once it has been. */
  lemma {:induction false} SubmittedAtMostOnce(s: PlayerState, hasAuthToken: bool, times: seq<int>)
    ensures s.emitted <= CheckAt(s, hasAuthToken, times).emitted
    ensures Submissions(CheckAt(s, hasAuthToken, times).emitted) <= Submissions(s.emitted) + (if s.listenSubmitted then 0 else 1)
    decreases |times|
  {
    if |times| > 0 {
      var t := CheckProgressAndSubmitListen(s.(continuousPlaybackTime := times[0]), hasAuthToken);
      SubmittedAtMostOnce(t, hasAuthToken, times[1..]);
    }
  }

  /** A 40 s track is submitted at the first check that sees 30 s of continuous playback,
      a 10 s track at the first check that sees 5 s. */
  lemma SubmissionExamples(s: PlayerState)
    requires !s.listenSubmitted
    ensures !CheckProgressAndSubmitListen(s.(durationMs := 40000, continuousPlaybackTime := 29999), true).listenSubmitted
    ensures CheckProgressAndSubmitListen(s.(durationMs := 40000, continuousPlaybackTime := 30000), true).listenSubmitted
    ensures !CheckProgressAndSubmitListen(s.(durationMs := 10000, continuousPlaybackTime := 4999), true).listenSubmitted
    ensures CheckProgressAndSubmitListen(s.(durationMs := 10000, continuousPlaybackTime := 5000), true).listenSubmitted
  {
  }

  // ---------------------------------------------------------------------------------------
  // Pausing, duration and seeking

  /** `playerPauseChange`: pausing stops the timer, resuming starts it; the continuous
      playback count and the submission gate are left alone. */
  function PlayerPauseChange(s: PlayerState, paused: bool): (r: PlayerState)
    ensures r.paused == paused && r.timerRunning == !paused
    ensures r.continuousPlaybackTime == s.continuousPlaybackTime && r.listenSubmitted == s.listenSubmitted
    ensures r.(paused := s.paused, timerRunning := s.timerRunning) == s
  {
    s.(paused := paused, timerRunning := !paused)
  }

  /** `durationChange` and the effect on `[durationMs]`: the effect runs only when the
      duration actually changes, and then starts the timer if the new duration is positive. */
  function DurationChange(s: PlayerState, durationMs: int): (r: PlayerState)
    ensures r.durationMs == durationMs
    ensures durationMs > 0 && durationMs != s.durationMs ==> r.timerRunning
    ensures durationMs <= 0 || durationMs == s.durationMs ==> r.timerRunning == s.timerRunning
    ensures r.(durationMs := s.durationMs, timerRunning := s.timerRunning) == s
  {
    s.(durationMs := durationMs, timerRunning := s.timerRunning || (durationMs > 0 && durationMs != s.durationMs))
  }

  /** Reporting the same duration twice is reporting it once: in particular a paused player
      that hears its current duration again stays paused, with its timer stopped. */
  lemma DurationChangeIdempotent(s: PlayerState, durationMs: int)
    ensures DurationChange(DurationChange(s, durationMs), durationMs) == DurationChange(s, durationMs)
    ensures var p := PlayerPauseChange(s, true);
      !DurationChange(p, p.durationMs).timerRunning
  {
  }

  /** `seekToPositionMs`: ask the current backend to seek and move the progress there. With no
      current backend the (no-op) invalidation of the current index is all that happens. */
  function SeekToPositionMs(s: PlayerState, positionMs: int): (r: PlayerState)
    ensures !s.isActivated ==> r == s
    ensures r.dataSources == s.dataSources && r.queue == s.queue && r.currentListen == s.currentListen
    ensures s.isActivated && 0 <= s.currentDataSourceIndex < |s.dataSources| ==>
      r.progressMs == positionMs && r.emitted == s.emitted + [SeekOn(s.currentDataSourceIndex, positionMs)]
    ensures !(s.isActivated && 0 <= s.currentDataSourceIndex < |s.dataSources|) ==> r == s
  {
    if !s.isActivated then s
    else if !(0 <= s.currentDataSourceIndex < |s.dataSources|) then InvalidateDataSource(s, None, None)
    else s.(progressMs := positionMs, emitted := s.emitted + [SeekOn(s.currentDataSourceIndex, positionMs)])
  }

  function SeekForward(s: PlayerState): (r: PlayerState)
    ensures s.isActivated && 0 <= s.currentDataSourceIndex < |s.dataSources| ==> r.progressMs == s.progressMs + SeekTimeMs
  {
    SeekToPositionMs(s, s.progressMs + SeekTimeMs)
  }

  function SeekBackward(s: PlayerState): (r: PlayerState)
    ensures s.isActivated && 0 <= s.currentDataSourceIndex < |s.dataSources| ==> r.progressMs == s.progressMs - SeekTimeMs
  {
    SeekToPositionMs(s, s.progressMs - SeekTimeMs)
  }

  /** Seeking forward then back returns to the same position. */
  lemma SeekRoundTrip(s: PlayerState)
    ensures SeekBackward(SeekForward(s)).progressMs == s.progressMs
  {
  }
}

=== FILE: text.dfy ===
/** String helpers standing in for JavaScript built-ins: `Number.prototype.toString`,
    ASCII `toLowerCase`, `String.prototype.includes` and `substring(0, n)`. */
module Text {

  predicate IsDigit(c: char) {
    '0' <= c <= '9'
  }

  function DigitChar(d: nat): (c: char)
    requires d < 10
    ensures IsDigit(c) && (c as int) - ('0' as int) == d
  {
    (('0' as int) + d) as char
  }

  function DigitValue(c: char): (d: nat)
    requires IsDigit(c)
    ensures d < 10
  {
    (c as int) - ('0' as int)
  }

  /** Decimal notation of a natural number, most significant digit first. */
  function NatToString(n: nat): (r: string)
    ensures |r| >= 1
    ensures forall i | 0 <= i < |r| :: IsDigit(r[i])
    ensures |r| > 1 ==> r[0] != '0'
    ensures r[0] == '0' <==> n == 0
    decreases n
  {
    if n < 10 then [DigitChar(n)] else NatToString(n / 10) + [DigitChar(n % 10)]
  }

  /** Decimal notation of an integer, with a leading '-' when negative. */
  function IntToString(i: int): (r: string)
    ensures |r| >= 1
    ensures i >= 0 <==> r[0] != '-'
  {
    if i < 0 then "-" + NatToString(-i) else NatToString(i)
  }

  /** The value of a string of decimal digits. */
  function ParseNat(s: string): nat
    requires forall i | 0 <= i < |s| :: IsDigit(s[i])
    decreases |s|
  {
    if |s| == 0 then 0 else ParseNat(s[..|s| - 1]) * 10 + DigitValue(s[|s| - 1])
  }

  /** Reading back the decimal notation of `n` gives `n`. */
  lemma {:induction false} ParseNatToString(n: nat)
    ensures ParseNat(NatToString(n)) == n
    decreases n
  {
    var s := NatToString(n);
    if n >= 10 {
      ParseNatToString(n / 10);
      assert s[..|s| - 1] == NatToString(n / 10);
    }
  }

  /** Distinct numbers have distinct decimal notations. */
  lemma NatToStringInjective(m: nat, n: nat)
    requires NatToString(m) == NatToString(n)
    ensures m == n
  {
    ParseNatToString(m);
    ParseNatToString(n);
  }

  predicate AllDigits(s: string) {
    forall i | 0 <= i < |s| :: IsDigit(s[i])
  }

  /** A non-empty run of digits with no leading zero unless it is the single digit "0". */
  predicate IsCanonicalDigits(d: string) {
    |d| > 0 && AllDigits(d) && (|d| > 1 ==> d[0] != '0')
  }

  /** The form `Number.prototype.toString` gives an integer: canonical digits, after a minus
      sign when the number is negative (so never "-0"). */
  predicate IsDecimal(s: string) {
    if |s| > 0 && s[0] == '-' then IsCanonicalDigits(s[1..]) && s[1] != '0' else IsCanonicalDigits(s)
  }

  /** The value of a decimal integer. */
  function ParseInt(s: string): int
    requires IsDecimal(s)
  {
    if s[0] == '-' then -(ParseNat(s[1..]) as int) else ParseNat(s)
  }

  /** Reading back the decimal notation of `i` gives `i`. */
  lemma ParseIntToString(i: int)
    ensures IsDecimal(IntToString(i)) && ParseInt(IntToString(i)) == i
  {
    if i < 0 {
      ParseNatToString(-i);
      assert IntToString(i)[1..] == NatToString(-i);
    } else {
      ParseNatToString(i);
    }
  }

  /** A run of digits that does not start with '0' has a positive value. */
  lemma {:induction false} LeadingDigitPositive(d: string)
    requires |d| > 0 && AllDigits(d) && d[0] != '0'
    ensures ParseNat(d) >= 1
    decreases |d|
  {
    if |d| > 1 {
      LeadingDigitPositive(d[..|d| - 1]);
    }
  }

  /** Canonical digits are the decimal notation of their value. */
  lemma {:induction false} CanonicalDigitsAreNatToString(d: string)
    requires IsCanonicalDigits(d)
    ensures NatToString(ParseNat(d)) == d
    decreases |d|
  {
    var last := d[|d| - 1];
    if |d| > 1 {
      var p := d[..|d| - 1];
      assert p[0] == d[0];
      CanonicalDigitsAreNatToString(p);
      LeadingDigitPositive(p);
      var n := ParseNat(d);
      assert n == ParseNat(p) * 10 + DigitValue(last);
      assert n / 10 == ParseNat(p) && n % 10 == DigitValue(last);
      assert DigitChar(DigitValue(last)) == last;
      assert d == p + [last];
    } else {
      assert DigitChar(DigitValue(last)) == last;
    }
  }

  /** A decimal string is the notation of its own value: two decimal strings with the same
      value are the same string. */
  lemma DecimalIsIntToString(s: string)
    requires IsDecimal(s)
    ensures s == IntToString(ParseInt(s))
  {
    if s[0] == '-' {
      CanonicalDigitsAreNatToString(s[1..]);
      LeadingDigitPositive(s[1..]);
      assert s == "-" + s[1..];
    } else {
      CanonicalDigitsAreNatToString(s);
    }
  }

  /** ASCII lower-casing of one character; other characters are left alone. */
  function LowerChar(c: char): char {
    if 'A' <= c <= 'Z' then ((c as int) + 32) as char else c
  }

  function Lower(s: string): (r: string)
    ensures |r| == |s|
    ensures forall i | 0 <= i < |s| :: r[i] == LowerChar(s[i])
  {
    seq(|s|, i requires 0 <= i < |s| => LowerChar(s[i]))
  }

  /** `s.includes(sub)`: `sub` occurs in `s` at some position. */
  predicate Contains(s: string, sub: string)
    decreases |s|
  {
    sub <= s || (|s| > 0 && Contains(s[1..], sub))
  }

  /** `sub` occurs in `s` at position `i`. */
  predicate OccursAt(s: string, sub: string, i: int) {
    0 <= i <= |s| - |sub| && sub <= s[i..]
  }

  /** The occurrence that `Contains` reports, as a position. */
  lemma {:induction false} ContainsAt(s: string, sub: string)
    ensures Contains(s, sub) <==> exists i :: OccursAt(s, sub, i)
    decreases |s|
  {
    if sub <= s {
      assert s[0..] == s;
      assert OccursAt(s, sub, 0);
    }
    if |s| > 0 {
      var tail := s[1..];
      ContainsAt(tail, sub);
      if Contains(tail, sub) {
        var i :| OccursAt(tail, sub, i);
        assert tail[i..] == s[i + 1..];
        assert OccursAt(s, sub, i + 1);
      }
      if exists i :: OccursAt(s, sub, i) {
        var i :| OccursAt(s, sub, i);
        if i > 0 {
          assert tail[i - 1..] == s[i..];
          assert OccursAt(tail, sub, i - 1);
        } else {
          assert s[i..] == s;
        }
      }
    } else if exists i :: OccursAt(s, sub, i) {
      var i :| OccursAt(s, sub, i);
      assert s[i..] == s;
    }
  }

  /** `s.substring(0, n)`: the first `n` characters, or all of `s` when it is shorter. */
  function Prefix(s: string, n: nat): (r: string)
    ensures r <= s
    ensures |r| == if |s| < n then |s| else n
  {
    if |s| <= n then s else s[..n]
  }
}
